=== FILE: README.md ===
# pegsocket in Dafny

pegsocket is a small PostgreSQL client. It speaks the frontend/backend wire protocol (version 3.0) over a WebSocket that carries the raw TCP byte stream. This project models its core in Dafny:

- **the growable byte buffer** (`buffer`). Every message is built in it and parsed from it. It is a Dafny class over an `array<byte>` with a write length and a read cursor.
- **the stream framer** (`defragment`). It appends transport chunks to a backlog and cuts complete tagged messages off its front. It is a class whose loop is proved against a pure framing function, `Framer.Split`.
- **the request encoders** (`writeStartup`, `writeQuery`, `writeParse`, `writeBind`, `writeDescribe`, `writeExecute`, `writeClose`, `writeSync`). Each is a method that performs the same successive buffer writes as the source. Each is proved to produce a layout function of its arguments.
- **the response decoders** (`readAuthentication`, `readRowDescription`, `readDataRow`, `readCommandComplete`, `readErrorResponse`). Each is a method that reads through the buffer's cursor. Each is proved equal to a pure decoding function. A read that runs past the end of the message (the byte view's RangeError) is `None`.
- **the receiver** (`recv`). It decodes each framed message by its tag and hands the collected messages over as one batch at ReadyForQuery.
- **the query side of the client** (`decodeByOid`, `toRows`, `query`). It covers the requests one query sends, the typed reading of column values, and the fold of a response batch into rows and an updated-row count.

Strings are byte sequences throughout: `Text` is UTF-8 that has already been encoded.

Two details of the framing and the login, modelled as the code has them:
- `toPacket` stores the packet's byte length minus one at offset 1. That is the protocol's Length field, which counts itself and the body but not the tag byte.
- `recv` only looks at whether an Authentication code is 0. There is no SASL state handling in this version of the code.

## Model

| member | source | states |
|---|---|---|
| Bytes.U16OfBE16 | pegsocket.js:26-30 | reading back a written u16 gives the value modulo 2^16 |
| Bytes.U32OfBE32 | pegsocket.js:31-35 | reading back a written u32 gives the value modulo 2^32 |
| Bytes.I32 | pegsocket.js:66-70 | getInt32 lies in [-2^31, 2^31) and agrees with getUint32 modulo 2^32 |
| Bytes.I32OfBE32 | pegsocket.js:36-40 | a signed 32-bit value written with setInt32 reads back unchanged with getInt32 |
| Bytes.BE16OfU16 | pegsocket.js:56-60 | writing back the u16 that was read reproduces the two bytes |
| Bytes.BE32OfU32 | pegsocket.js:61-65 | writing back the u32 that was read reproduces the four bytes |
| Bytes.SplitCString | pegsocket.js:75-83 | no terminator exactly when there is no NUL; otherwise the string has no NUL and string + NUL + rest is the input |
| Bytes.SplitCStringOfCString | pegsocket.js:41-47 | a NUL-free string written with its terminator reads back as itself, and the rest is untouched |
| Bytes.SplitCStringsOfCStrings | pegsocket.js:137 | a run of terminated strings reads back string by string |
| ByteBuffer.Doubled | pegsocket.js:9-21 | the grown capacity exceeds the need and is at least the old capacity |
| ByteBuffer.DoubledAtMostTwice | pegsocket.js:9-21 | growth by doubling overshoots the need by at most a factor of two |
| ByteBuffer.Buffer.constructor | pegsocket.js:4-7 | a new buffer is empty, with the size hint as its capacity |
| ByteBuffer.Buffer.Wrap | pegsocket.js:4-7 | a wrapped buffer holds exactly the data, with the cursor at its start |
| ByteBuffer.Buffer.Alloc | pegsocket.js:9-21 | the committed bytes and cursor are kept; the capacity becomes the doubled size only when the bytes do not fit; the old array is copied |
| ByteBuffer.Buffer.Put | pegsocket.js:22-51 | the bytes are appended in place and nothing else changes |
| ByteBuffer.Buffer.WriteUint8 | pegsocket.js:22-25 | appends the value modulo 256 |
| ByteBuffer.Buffer.WriteUint16 | pegsocket.js:26-30 | appends the big-endian u16 of the value |
| ByteBuffer.Buffer.WriteUint32 | pegsocket.js:31-35 | appends the big-endian u32 of the value |
| ByteBuffer.Buffer.WriteInt32 | pegsocket.js:36-40 | appends the same four bytes as setUint32 |
| ByteBuffer.Buffer.WriteString | pegsocket.js:41-47 | appends the string and one NUL |
| ByteBuffer.Buffer.WriteBuf | pegsocket.js:48-52 | appends the bytes; the array is kept when they fit |
| ByteBuffer.Buffer.ReadUint8 | pegsocket.js:53-55 | returns the next byte and moves past it |
| ByteBuffer.Buffer.ReadUint16 | pegsocket.js:56-60 | returns the big-endian u16 at the cursor and moves past it |
| ByteBuffer.Buffer.ReadUint32 | pegsocket.js:61-65 | returns the big-endian u32 at the cursor and moves past it |
| ByteBuffer.Buffer.ReadInt32 | pegsocket.js:66-70 | returns the two's-complement i32 at the cursor and moves past it |
| ByteBuffer.Buffer.ReadBuf | pegsocket.js:71-74 | returns the next n bytes (none for negative n) and moves the cursor by n; a length past the end yields the bytes that are there and leaves the cursor at the end |
| ByteBuffer.Buffer.ReadString | pegsocket.js:75-83 | returns the bytes up to the next NUL and moves past the NUL; without a NUL, fails and leaves the cursor |
| ByteBuffer.Buffer.Available | pegsocket.js:84-86 | the number of unread bytes |
| ByteBuffer.Buffer.Read | pegsocket.js:87-89 | skips exactly n unread bytes |
| ByteBuffer.Buffer.Unread | pegsocket.js:90-92 | moves the cursor back n bytes |
| ByteBuffer.Buffer.Trim | pegsocket.js:93-95 | exactly the committed bytes |
| ByteBuffer.Buffer.ToPacket | pegsocket.js:96-100 | the length field at offset 1 reads len - 1, so the result is the tagged packet of the tag and the bytes after the header |
| ByteBuffer.Buffer.Compact | pegsocket.js:101-107 | the unread bytes move to the front of a fresh array of capacity max(sizeHint, unread); the cursor is 0 and the unread bytes are unchanged |
| Framer.Split | pegsocket.js:116-132 | no message exactly when no complete frame is at the front; what is kept holds no complete frame |
| Framer.AppendKeepsFrame | pegsocket.js:116-132 | bytes arriving later do not change a complete message or where the next one starts |
| Framer.SplitAppend | pegsocket.js:116-132 | framing a + b gives a's messages, then the framing of a's leftover followed by b |
| Framer.FeedIsSplit | pegsocket.js:116-132 | pushing chunks one by one emits what framing their concatenation emits |
| Framer.ChunkingInvariant | pegsocket.js:116-132 | the emitted messages do not depend on how the stream is cut into chunks |
| Framer.SplitPacket | pegsocket.js:96-100 | a packet built by toPacket is cut back into its tag and body, whatever follows |
| Framer.SplitPackets | pegsocket.js:116-132 | a stream of packets is framed back into the same messages in order |
| Framer.SplitLosesNothing | pegsocket.js:116-132 | when every length counts its own four bytes, the emitted messages re-encode with the rest to the input |
| Framer.HeadPacket | pegsocket.js:116-132 | a well-formed message at the front re-encodes to exactly its bytes |
| Framer.Drain | pegsocket.js:120-130 | the while loop emits exactly the framing of the unread bytes and leaves its rest unread |
| Framer.ReadFrame | pegsocket.js:121-128 | one loop turn: completes exactly when a frame is there; then it yields the message and moves past it, otherwise it steps back over the header |
| Framer.Defragmenter.constructor | pegsocket.js:117 | the backlog starts empty with capacity 4096 |
| Framer.Defragmenter.Push | pegsocket.js:118-131 | one chunk: emits the framing of backlog + chunk, keeps its rest, and compacts the backlog |
| Encoders.StartMessage | pegsocket.js:143-145 | a fresh buffer holding the tag and a zero length placeholder |
| Encoders.StartupParams | pegsocket.js:137 | seven strings in order: "client_encoding", "UTF-8", "database", the database, "user", the user, and the empty terminator |
| Encoders.WriteStartup | pegsocket.js:133-141 | the packet is its total length, version 196608 and the parameter strings |
| Encoders.StartupFields | pegsocket.js:133-141 | the startup packet reads back as its own length, 196608, and exactly the seven parameter strings |
| Encoders.StartupParamsNoNul | pegsocket.js:137 | the fixed parameter names and values carry no NUL |
| Encoders.WriteQuery | pegsocket.js:142-148 | a 'Q' packet of the NUL-terminated SQL text |
| Encoders.QueryRoundTrip | pegsocket.js:142-148 | the framer cuts the Query packet back out and its body reads back as the SQL text |
| Encoders.ZeroOids | pegsocket.js:155-157 | 4n bytes, all zero |
| Encoders.WriteParse | pegsocket.js:149-160 | a 'P' packet: unnamed statement, SQL text, the parameter count and one zero OID per parameter |
| Encoders.WriteZeroOids | pegsocket.js:155-157 | the loop appends one zero OID per parameter |
| Encoders.ParseFields | pegsocket.js:149-160 | a Parse body reads back as the empty name, the SQL text and the count, followed by the zero OIDs |
| Encoders.ParamsAppend | pegsocket.js:169-177 | the parameter layout of a + b is that of a followed by that of b |
| Encoders.WriteBind | pegsocket.js:161-180 | a 'B' packet: empty names, no format codes, the count, each parameter, no result formats |
| Encoders.WriteParams | pegsocket.js:169-177 | the forEach appends every parameter's layout in order |
| Encoders.WriteParam | pegsocket.js:170-176 | NULL appends the length -1; any other value appends its length then its bytes |
| Encoders.WriteDescribe | pegsocket.js:181-188 | a 'D' packet naming the unnamed statement ('S', empty name) |
| Encoders.WriteExecute | pegsocket.js:189-196 | an 'E' packet for the unnamed portal with row limit 0 |
| Encoders.WriteClose | pegsocket.js:197-204 | a 'C' packet naming the unnamed statement |
| Encoders.WriteSync | pegsocket.js:205-210 | an 'S' packet with no body |
| Decoders.Skipped | pegsocket.js:87-89 | skipping n bytes leaves the rest, or nothing when fewer are left |
| Decoders.Skip | pegsocket.js:87-89 | the cursor moves past n bytes, stopping at the end |
| Decoders.ReadAuthentication | pegsocket.js:211-213 | reads the code and reports ok exactly when it is 0; fails on a body shorter than 4 bytes |
| Decoders.AuthenticationOk | pegsocket.js:211-213 | the message for code c is ok exactly when c = 0 |
| Decoders.ReadColumn | pegsocket.js:217-220 | one column: name, 6 skipped bytes, type OID, 8 skipped bytes |
| Decoders.ReadColumns | pegsocket.js:216-223 | the loop reads the given number of columns in order |
| Decoders.ReadRowDescription | pegsocket.js:214-225 | the column count, then the names and type OIDs in column order |
| Decoders.DecodeField | pegsocket.js:217-220 | a column description as the server sends it yields its name and type OID and ends exactly after itself |
| Decoders.DecodeFields | pegsocket.js:216-223 | a run of column descriptions yields all names and OIDs in order |
| Decoders.RowDescriptionRoundTrip | pegsocket.js:214-225 | a RowDescription as the server sends it decodes to its names and type OIDs |
| Decoders.ReadValue | pegsocket.js:230-231 | one value: length -1 is NULL with no bytes, otherwise that many bytes |
| Decoders.ReadValues | pegsocket.js:229-232 | the loop reads the given number of values in order |
| Decoders.ReadDataRow | pegsocket.js:226-234 | the column count, then every value in column order |
| Decoders.ValueRoundTrip | pegsocket.js:230-231 | one Bind parameter read as a DataRow value is the parameter, NULL included |
| Decoders.ValuesRoundTrip | pegsocket.js:229-232 | the Bind parameter layout read as DataRow values gives the parameters back |
| Decoders.DataRowRoundTrip | pegsocket.js:226-234 | a DataRow with the Bind layout of values decodes to those values |
| Decoders.BindRoundTrip | pegsocket.js:161-180 | a Bind body reads back as zero format codes, the count and every parameter, NULLs included |
| Decoders.ReadCommandComplete | pegsocket.js:235-237 | the NUL-terminated command tag |
| Decoders.CommandCompleteRoundTrip | pegsocket.js:235-237 | a terminated tag decodes to itself |
| Decoders.SetField | pegsocket.js:242-247 | V, C, M and D each set their own field to the value and leave the other three alone; any other code changes nothing |
| Decoders.ReadErrorResponse | pegsocket.js:238-250 | the field loop up to the zero code, keeping V, C, M and D and dropping the others |
| Decoders.ErrorFieldsRoundTrip | pegsocket.js:240-248 | an error body decodes to its fields applied in order, whatever follows the terminator |
| Decoders.ApplyFieldsAppend | pegsocket.js:240-248 | applying a + b is applying a, then b |
| Decoders.ApplyFieldsSnoc | pegsocket.js:242-247 | applying one more field sets that field on the result |
| Decoders.LaterFieldsKeepMessage | pegsocket.js:242-247 | fields other than M leave the message alone |
| Decoders.LastMessageWins | pegsocket.js:242-247 | the reported message is the last M field sent |
| Dispatch.Decoded | pegsocket.js:254-264 | a decoded message is of the kind its tag names: E an ErrorResponse, T a RowDescription, D a DataRow, C a CommandComplete, R an Authentication |
| Dispatch.React | pegsocket.js:254-265 | at most one batch per message, exactly when it is Z or a failed Authentication; Z hands over everything collected and empties the collection; otherwise what is collected is kept, and a quiet message adds itself when it decodes |
| Dispatch.ReadMessage | pegsocket.js:254-264 | decodes by tag: E, T, D, C and R as their messages, any other tag ignored |
| Dispatch.Receiver.constructor | pegsocket.js:251-253 | nothing collected, empty backlog |
| Dispatch.Receiver.Handle | pegsocket.js:253-265 | Z hands the collected messages over and starts afresh; a failed Authentication goes over alone; others are collected |
| Dispatch.Receiver.HandleAll | pegsocket.js:253-265 | the messages of one chunk are handled in order |
| Dispatch.Receiver.Push | pegsocket.js:251-267 | one chunk: the batches handed over are those its complete messages produce, in order |
| Dispatch.DeliverAppend | pegsocket.js:251-267 | handling a then b is handling a + b |
| Dispatch.BatchesOnlyGrow | pegsocket.js:259-261 | a batch once handed over is never changed |
| Dispatch.BatchCount | pegsocket.js:259-264 | exactly one batch per ReadyForQuery and per failed Authentication |
| Dispatch.QuietDelivery | pegsocket.js:255-258 | without a hand-over, every decodable message is collected in order and nothing is handed over |
| Dispatch.ReadyDeliversBatch | pegsocket.js:259-261 | the responses to one request followed by Z arrive as exactly one batch |
| Dispatch.DeliverAfterBatches | pegsocket.js:251-267 | batches already handed over stay in front and do not affect what follows, so successive Push results concatenate |
| Dispatch.ReceivePush | pegsocket.js:251-267 | receiving chunks is one Push of the first chunk, its batches appended, then receiving the rest from the backlog Push leaves |
| Dispatch.ReceiveIsDeliver | pegsocket.js:251-267 | successive pushes hand over what handling all framed messages at once hands over |
| Dispatch.ReceiveChunkingInvariant | pegsocket.js:251-267 | what is handed over does not depend on how the stream was cut into chunks |
| Client.Sent | pegsocket.js:319-326 | six messages exactly when there are parameters, otherwise one Query |
| Client.Requests | pegsocket.js:319-326 | the packets are those of Parse, Bind, Describe, Execute, Close and Sync, or of Query |
| Client.RequestsFrame | pegsocket.js:319-326 | framing the bytes of a query's requests gives back exactly the messages sent |
| Client.Decimal | pegsocket.js:283 | a non-empty run of digits |
| Client.DigitsValueOfDecimal | pegsocket.js:283 | the digits of n spell n |
| Client.ParseBigInt | pegsocket.js:283 | empty text is 0; plain digits are their value |
| Client.IntegerRoundTrip | pegsocket.js:283 | an integer printed in decimal reads back as itself |
| Client.NotAnInteger | pegsocket.js:283 | a lone sign or a byte that is neither sign nor digit is rejected |
| Client.DecodeByOid | pegsocket.js:273-290 | NULL is null for every type; it fails exactly for an integer column whose text BigInt rejects, and otherwise gives an integer column the BigInt of its text |
| Client.BoolColumns | pegsocket.js:278-279 | a bool value is true exactly when its first byte is 't'; so 't' is true and 'f' is false |
| Client.IntegerColumns | pegsocket.js:280-283 | int2, int4 and int8 text gives back the printed integer |
| Client.OtherColumnsAreText | pegsocket.js:287-288 | unknown types come back as their text, unchanged |
| Client.BuildRow | pegsocket.js:299-303 | the reduce over one DataRow: a value without a RowDescription fails; under a description, the object is built exactly when every value decodes by its column's type |
| Client.RowProto | pegsocket.js:300-303 | the prototype is null exactly when some `__proto__` column had a NULL value, and the object owns `__proto__` exactly when another `__proto__` column came after that one |
| Client.DecodeRow | pegsocket.js:299-303 | a value without a RowDescription fails; the row has a `__proto__` property exactly when a `__proto__` column follows a NULL `__proto__` value; the row is built exactly when every value decodes by its column's type |
| Client.RowKeys | pegsocket.js:300-303 | a row has one property per distinct column name, except `__proto__` while the prototype is still Object.prototype, whose setter takes the assignment instead |
| Client.RowLookup | pegsocket.js:300-303 | each value lands under its column's name unless a later column of that name overwrites it, or the name is `__proto__` and no NULL `__proto__` value came before it |
| Client.ProtoAfterNull | pegsocket.js:300-303 | NULL then 'x' under two `__proto__` columns gives the own property `__proto__` = 'x'; a non-NULL first value instead gives an empty row |
| Client.ToRowsStep | pegsocket.js:291-314 | an ErrorResponse fails with its fields; a RowDescription becomes the description; a DataRow appends the row DecodeRow builds from its values, and fails exactly when that fails; a CommandComplete sets the count to RowCount of its tag; an Authentication changes nothing |
| Client.ToRows | pegsocket.js:291-314 | a successful fold saw no ErrorResponse and kept every earlier row in front |
| Client.Query | pegsocket.js:327-328 | a query that succeeds had no ErrorResponse, has one row per DataRow and the count of the last CommandComplete; it succeeds whenever no ErrorResponse comes and every DataRow decodes under the description in force |
| Client.ToRowsDesc | pegsocket.js:295-296 | the description the fold holds is that of the last RowDescription seen |
| Client.ToRowsSucceeds | pegsocket.js:291-314 | the fold succeeds when no ErrorResponse comes and every DataRow decodes under the description in force when it arrives |
| Client.ToRowsAppend | pegsocket.js:327 | reducing a + b is reducing a, then reducing b from its result |
| Client.PrefixOk | pegsocket.js:327 | a fold that succeeds succeeded on every prefix, and the prefix's rows come first |
| Client.DataRowStep | pegsocket.js:298-304 | folding a DataRow appends the row its values build under the description in force |
| Client.RowOfDataRow | pegsocket.js:298-304 | the row after those of the earlier DataRows is the one the DataRow's values build under the last RowDescription before it |
| Client.QueryRows | pegsocket.js:298-304 | in a query's result, the k-th row is the one the k-th DataRow's values build under the last RowDescription before it |
| Client.OneRowPerDataRow | pegsocket.js:298-305 | one row per DataRow |
| Client.FailureSticks | pegsocket.js:327 | once the fold has failed, later messages do not change the failure |
| Client.ErrorFails | pegsocket.js:293-294 | an ErrorResponse anywhere in the batch fails the query |
| Client.FirstErrorReported | pegsocket.js:293-294 | with nothing failing before it, the query fails with that ErrorResponse's fields |
| Client.UpdatedIsLastCount | pegsocket.js:306-311 | the updated count is that of the last CommandComplete, 0 without one |
| Client.LastWord | pegsocket.js:309 | the suffix of the tag after its last space: it contains no space and is the whole tag or follows a space |
| Client.DigitPrefix | pegsocket.js:310 | the longest all-digit prefix: it is a prefix, all digits, and the byte after it is not a digit |
| Client.ParseInt | pegsocket.js:310 | a number exactly when digits follow the optional sign; the number is the value of those leading digits, negated after a minus (so "12abc" is 12 and "-5" is -5); all-digit text gives its value |
| Client.RowCount | pegsocket.js:307-311 | a positive count only for INSERT, UPDATE and DELETE tags, and then it is the parseInt of the tag's last word |
| Client.DigitPrefixOfDigits | pegsocket.js:310 | all-digit text is its own digit prefix |
| Client.LastWordAfterSpace | pegsocket.js:309 | the last word after a space-terminated prefix is the word |
| Client.ParseIntOfDecimal | pegsocket.js:310 | parseInt of printed digits is the number |
| Client.RowCountOfTag | pegsocket.js:307-311 | "INSERT 0 n", "UPDATE n" and "DELETE n" report n |
| Client.OtherTagsCountNothing | pegsocket.js:307-311 | any other tag, a SELECT say, reports 0 |

## Left out

- The WebSocket, its events, the Promise returned by the default export and the FIFO of pending callbacks (pegsocket.js:333-354) are transport and concurrency. The model starts at the byte chunks that arrive and the batches that are handed over.
- SCRAM authentication is not part of this version of the code, so it is not part of this model either.
- UTF-8 encoding and decoding (TextEncoder/TextDecoder): strings are modelled as their UTF-8 bytes. The buffer size hints of `writeStartup`, `writeQuery` and `writeParse` count UTF-16 units in the source; the model counts bytes. A size hint only sets the first capacity, because the buffer grows as needed.
- Client.DecodeByOid: float columns (700, 701) keep their text. parseFloat is not modelled.
- Client.ParseBigInt: BigInt's surrounding whitespace and its 0x, 0o and 0b forms are not modelled. These are accepted by BigInt but rejected by the model. PostgreSQL prints integers as an optional minus and decimal digits.
- Client.ParseInt: the leading whitespace that parseInt skips, its 0x hexadecimal form and its rounding of numbers beyond 2^53 are not modelled.
- Client.DecodeRow: the row is a map from name to value. The insertion order of the object's properties is not kept. The row's prototype is kept only as far as it decides which assignments create properties: once a NULL `__proto__` value has nulled it, the row no longer inherits Object.prototype's members such as `toString`, and the model does not represent inherited members.
- ByteBuffer.Buffer.Trim: the source returns the array itself when it is exactly full, so the packet aliases the buffer. The model returns the bytes as a value.
- ByteBuffer.Buffer.Alloc: requires a non-empty array whenever the bytes do not fit. From an empty array the source's doubling loop never ends. No buffer in the code is written to while empty.
- ByteBuffer.Buffer.ReadBuf: requires the cursor to stay at or after the start (pos + n >= 0). A length past the end stops the cursor at the end; the source moves it further and its slice stops at the array's capacity rather than the write length. For the decoders' messages the two coincide, and every later read fails either way.
- ByteBuffer.Buffer.Read: requires the skip to stay within the committed bytes. The decoders' skips go through Decoders.Skip, which stops at the end. Skipping further in the source only makes every later read fail, and the decoded result is the same.
- Decoders.ReadValue: a DataRow length below -1 is modelled as a failed decode. In the source, readBuf with a negative length moves the cursor backwards. PostgreSQL never sends such a length.
- Decoders: a read past the end of a message throws a RangeError in the source. The model decodes it to None, and the receiver drops that message. In the source, the exception leaves the rest of that chunk's messages in the backlog until the next chunk arrives. The messages handled are the same; only their timing differs.


=== FILE: buffer.dfy ===
/**
 * The growable byte buffer every message is built in and parsed from
 * (`buffer`, pegsocket.js:4-113): a backing array `buf`, a write length
 * `len` and a read cursor `pos`, with 0 <= pos <= len <= buf.Length.
 */
module ByteBuffer {
  import opened Wrappers
  import opened Bytes

  /**
   * The capacity alloc's doubling loop settles on: the first of size,
   * 2 * size, 4 * size, ... that is strictly larger than need.
   */
  function Doubled(size: nat, need: nat): (r: nat)
    requires size > 0
    ensures r > need && r >= size
    decreases need + 1 - size
  {
    if size > need then size else Doubled(size * 2, need)
  }

  /** Doubling overshoots the need by at most a factor of two. */
  lemma {:induction false} DoubledAtMostTwice(size: nat, need: nat)
    requires size > 0
    ensures Doubled(size, need) <= if size > need then size else 2 * need
    decreases need + 1 - size
  {
    if size <= need && size * 2 <= need {
      DoubledAtMostTwice(size * 2, need);
    }
  }

  function Max(a: nat, b: nat): nat {
    if a >= b then a else b
  }

  class Buffer {
    var buf: array<byte>
    var pos: nat
    var len: nat
    const sizeHint: nat

    /** The committed bytes, [0, len). */
    ghost var contents: seq<byte>

    ghost predicate Valid()
      reads this, buf
    {
      && pos <= len <= buf.Length && |contents| == len
      && forall i | 0 <= i < len :: buf[i] == contents[i]
    }

    /** The bytes written but not yet read, [pos, len). */
    ghost function Remaining(): (r: seq<byte>)
      reads this, buf
      requires Valid()
      ensures |r| == len - pos
    {
      contents[pos..]
    }

    /** buffer(sizeHint): an empty buffer with that capacity. */
    constructor (sizeHint: nat)
      ensures Valid() && fresh(buf)
      ensures this.sizeHint == sizeHint && buf.Length == sizeHint
      ensures pos == 0 && len == 0
    {
      this.sizeHint := sizeHint;
      buf := new byte[sizeHint];
      pos, len := 0, 0;
      contents := [];
    }

    /** buffer(0, data): a buffer holding exactly `data`, ready to be read from the start. */
    constructor Wrap(data: seq<byte>)
      ensures Valid() && fresh(buf)
      ensures sizeHint == 0 && buf.Length == |data|
      ensures pos == 0 && contents == data && Remaining() == data
    {
      sizeHint := 0;
      buf := new byte[|data|](i requires 0 <= i < |data| => data[i]);
      pos, len := 0, |data|;
      contents := data;
    }

    /**
     * Makes room for n more bytes. When they do not fit, the capacity
     * doubles until it exceeds len + n and the whole old array is copied
     * over. The loop only ends when the old capacity is positive.
     */
    method Alloc(n: nat)
      requires Valid()
      requires len + n <= buf.Length || buf.Length > 0
      modifies this
      ensures Valid() && pos == old(pos) && len == old(len) && contents == old(contents)
      ensures buf.Length == if len + n <= old(buf.Length) then old(buf.Length)
                            else Doubled(2 * old(buf.Length), len + n)
      ensures buf.Length >= len + n
      ensures buf[..old(buf.Length)] == old(buf[..])
      ensures len + n <= old(buf.Length) ==> buf == old(buf)
      ensures buf == old(buf) || fresh(buf)
    {
      if len + n > buf.Length {
        var size := buf.Length * 2;
        while size <= len + n
          invariant size > 0
          invariant Doubled(size, len + n) == Doubled(2 * buf.Length, len + n)
          decreases len + n - size
        {
          size := size * 2;
        }
        var grown := new byte[size];
        forall i | 0 <= i < buf.Length {
          grown[i] := buf[i];
        }
        buf := grown;
      }
    }

    /** Stores `bytes` at len and moves len past them (the DataView set calls). */
    method Put(bytes: seq<byte>)
      requires Valid() && len + |bytes| <= buf.Length
      modifies this, buf
      ensures Valid() && len == old(len) + |bytes| && pos == old(pos) && buf == old(buf)
      ensures contents == old(contents) + bytes
    {
      forall i | 0 <= i < |bytes| {
        buf[len + i] := bytes[i];
      }
      len := len + |bytes|;
      contents := contents + bytes;
    }

    method WriteUint8(i: int)
      requires Valid() && buf.Length > 0
      modifies this, buf
      ensures Valid() && pos == old(pos) && buf.Length >= old(buf.Length)
      ensures buf == old(buf) || fresh(buf)
      ensures contents == old(contents) + [i % 0x100]
    {
      Alloc(1);
      Put([i % 0x100]);
    }

    method WriteUint16(i: int)
      requires Valid() && buf.Length > 0
      modifies this, buf
      ensures Valid() && pos == old(pos) && buf.Length >= old(buf.Length)
      ensures buf == old(buf) || fresh(buf)
      ensures contents == old(contents) + BE16(i)
    {
      Alloc(2);
      Put(BE16(i));
    }

    method WriteUint32(i: int)
      requires Valid() && buf.Length > 0
      modifies this, buf
      ensures Valid() && pos == old(pos) && buf.Length >= old(buf.Length)
      ensures buf == old(buf) || fresh(buf)
      ensures contents == old(contents) + BE32(i)
    {
      Alloc(4);
      Put(BE32(i));
    }

    /** setInt32 stores the same four bytes as setUint32: both reduce modulo 2^32. */
    method WriteInt32(i: int)
      requires Valid() && buf.Length > 0
      modifies this, buf
      ensures Valid() && pos == old(pos) && buf.Length >= old(buf.Length)
      ensures buf == old(buf) || fresh(buf)
      ensures contents == old(contents) + BE32(i)
    {
      Alloc(4);
      Put(BE32(i));
    }

    /** Appends the (already UTF-8 encoded) string and one NUL. */
    method WriteString(s: Text)
      requires Valid() && buf.Length > 0
      modifies this, buf
      ensures Valid() && pos == old(pos) && buf.Length >= old(buf.Length)
      ensures buf == old(buf) || fresh(buf)
      ensures contents == old(contents) + CString(s)
    {
      Alloc(|s| + 1);
      Put(s);
      Put([0]);
    }

    method WriteBuf(bytes: seq<byte>)
      requires Valid() && (len + |bytes| <= buf.Length || buf.Length > 0)
      modifies this, buf
      ensures Valid() && pos == old(pos) && buf.Length >= old(buf.Length)
      ensures buf == old(buf) || fresh(buf)
      ensures old(len) + |bytes| <= old(buf.Length) ==> buf == old(buf)
      ensures contents == old(contents) + bytes
    {
      Alloc(|bytes|);
      Put(bytes);
    }

    method ReadUint8() returns (v: byte)
      requires Valid() && len - pos >= 1
      modifies this`pos
      ensures Valid() && pos == old(pos) + 1
      ensures v == old(Remaining())[0] && Remaining() == old(Remaining())[1..]
    {
      v := buf[pos];
      pos := pos + 1;
    }

    method ReadUint16() returns (v: nat)
      requires Valid() && len - pos >= 2
      modifies this`pos
      ensures Valid() && pos == old(pos) + 2
      ensures v == U16(old(Remaining())) && Remaining() == old(Remaining())[2..]
    {
      v := U16(buf[pos..len]);
      pos := pos + 2;
    }

    method ReadUint32() returns (v: nat)
      requires Valid() && len - pos >= 4
      modifies this`pos
      ensures Valid() && pos == old(pos) + 4
      ensures v == U32(old(Remaining())) && Remaining() == old(Remaining())[4..]
    {
      assert buf[pos..len] == Remaining();
      v := U32(buf[pos..len]);
      pos := pos + 4;
    }

    method ReadInt32() returns (v: int)
      requires Valid() && len - pos >= 4
      modifies this`pos
      ensures Valid() && pos == old(pos) + 4
      ensures v == I32(old(Remaining())) && Remaining() == old(Remaining())[4..]
    {
      assert buf[pos..len] == Remaining();
      v := I32(buf[pos..len]);
      pos := pos + 4;
    }

    /**
     * buf.slice(pos, pos += n): the next n bytes. A negative n yields no
     * bytes (slice with end before start) and still moves the cursor back.
     * A length past the end yields the bytes that are there, and the cursor
     * stops at the end, where every later read fails as it would beyond it.
     */
    method ReadBuf(n: int) returns (r: seq<byte>)
      requires Valid() && 0 <= pos + n
      modifies this`pos
      ensures Valid()
      ensures pos == if old(pos) + n <= len then old(pos) + n else len
      ensures r == if n < 0 then []
                   else if n <= len - old(pos) then old(Remaining())[..n]
                   else old(Remaining())
    {
      if n < 0 {
        r := [];
        pos := pos + n;
      } else if pos + n <= len {
        r := buf[pos..pos + n];
        pos := pos + n;
      } else {
        r := buf[pos..len];
        pos := len;
      }
    }

    /**
     * Scans from the cursor to the first NUL; returns the bytes before it and
     * moves past it. Running off the end without meeting a NUL is the
     * RangeError of the byte view: None, with the cursor left alone.
     */
    method ReadString() returns (r: Option<Text>)
      requires Valid()
      modifies this`pos
      ensures Valid()
      ensures match SplitCString(old(Remaining()))
              case None => r == None && pos == old(pos)
              case Some((s, rest)) => r == Some(s) && Remaining() == rest
    {
      ghost var rest := Remaining();
      var i := 0;
      while pos + i < len && buf[pos + i] != 0
        invariant pos + i <= len
        invariant forall k | 0 <= k < i :: rest[k] != 0
        decreases len - pos - i
      {
        i := i + 1;
      }
      if pos + i == len {
        assert NoNul(rest) by {
          forall k | 0 <= k < |rest| ensures rest[k] != 0 {
          }
        }
        return None;
      }
      var s := buf[pos..pos + i];
      assert s == rest[..i];
      pos := pos + i + 1;
      assert Remaining() == rest[i + 1..];
      SplitCStringAt(rest, i);
      return Some(s);
    }

    /** available(): how many bytes are left to read. */
    function Available(): (n: nat)
      reads this, buf
      requires Valid()
      ensures n == |Remaining()|
    {
      len - pos
    }

    /** read(n): skips n bytes. */
    method Read(n: nat)
      requires Valid() && pos + n <= len
      modifies this`pos
      ensures Valid() && pos == old(pos) + n
      ensures Remaining() == old(Remaining())[n..]
    {
      pos := pos + n;
    }

    /** unread(n): moves the cursor back n bytes, so that read(n); unread(n) leaves it where it was. */
    method Unread(n: nat)
      requires Valid() && n <= pos
      modifies this`pos
      ensures Valid() && pos == old(pos) - n
      ensures Remaining() == contents[old(pos) - n..]
    {
      pos := pos - n;
    }

    /** trim(): exactly the committed bytes, without the slack capacity. */
    function Trim(): (r: seq<byte>)
      reads this, buf
      requires Valid()
      ensures |r| == len && r == contents
    {
      buf[..len]
    }

    /**
     * toPacket(): the committed bytes with len - 1 (the size of everything
     * after the tag byte) stored as a big-endian u32 at offset 1, so that the
     * first byte and the bytes after the header become a tagged packet.
     */
    function ToPacket(): (p: seq<byte>)
      reads this, buf
      requires Valid() && len >= 5
      ensures |p| == len && U32(p[1..]) == (len - 1) % 0x1_0000_0000
      ensures p == Packet(contents[0], contents[5..])
    {
      var packet := Trim();
      U32OfBE32(len - 1);
      assert (packet[..1] + BE32(len - 1) + packet[5..])[1..5] == BE32(len - 1);
      packet[..1] + BE32(len - 1) + packet[5..]
    }

    /**
     * compact(): moves the unread bytes to the start of a fresh array of
     * capacity max(sizeHint, unread) and resets the cursor to 0.
     */
    method Compact()
      requires Valid()
      modifies this
      ensures Valid() && fresh(buf) && pos == 0
      ensures buf.Length == Max(sizeHint, |old(Remaining())|)
      ensures contents == old(Remaining()) && Remaining() == old(Remaining())
    {
      var remaining := buf[pos..len];
      buf := new byte[Max(sizeHint, |remaining|)];
      pos, len := 0, 0;
      contents := [];
      WriteBuf(remaining);
    }
  }
}

=== FILE: bytes.dfy ===
/**
 * Byte-level vocabulary shared by the buffer, the framer and the codec:
 * big-endian integer layouts as DataView stores and loads them, and
 * NUL-terminated strings.
 */
module Bytes {
  import opened Wrappers

  type byte = b: int | 0 <= b < 256

  /** UTF-8 text, already encoded: every string of the protocol is handled as its bytes. */
  type Text = seq<byte>

  /** The bytes of an ASCII literal (each character's low byte). */
  function Ascii(s: string): (r: Text)
    ensures |r| == |s|
  {
    seq(|s|, i requires 0 <= i < |s| => (s[i] as int) % 256)
  }

  // ---------------------------------------------------------------- integers

  /** setUint16: `v` reduced modulo 2^16 (ToUint16), most significant byte first. */
  function BE16(v: int): (r: seq<byte>)
    ensures |r| == 2
  {
    var x := v % 0x1_0000;
    [x / 0x100, x % 0x100]
  }

  /** setUint32 / setInt32: `v` reduced modulo 2^32 (ToUint32), most significant byte first. */
  function BE32(v: int): (r: seq<byte>)
    ensures |r| == 4
  {
    var x := v % 0x1_0000_0000;
    BE16(x / 0x1_0000) + BE16(x % 0x1_0000)
  }

  /** getUint16 on the first two bytes of `s`. */
  function U16(s: seq<byte>): (r: nat)
    requires |s| >= 2
    ensures r < 0x1_0000
  {
    s[0] as int * 0x100 + s[1] as int
  }

  /** getUint32 on the first four bytes of `s`. */
  function U32(s: seq<byte>): (r: nat)
    requires |s| >= 4
    ensures r < 0x1_0000_0000
  {
    U16(s) * 0x1_0000 + U16(s[2..])
  }

  /** getInt32 on the first four bytes of `s`: the two's-complement reading of U32. */
  function I32(s: seq<byte>): (r: int)
    requires |s| >= 4
    ensures -0x8000_0000 <= r < 0x8000_0000
    ensures r % 0x1_0000_0000 == U32(s)
  {
    var u := U32(s);
    if u < 0x8000_0000 then u else u - 0x1_0000_0000
  }

  lemma U16OfBE16(v: int)
    ensures U16(BE16(v)) == v % 0x1_0000
  {
  }

  lemma U32OfBE32(v: int)
    ensures U32(BE32(v)) == v % 0x1_0000_0000
  {
    var x := v % 0x1_0000_0000;
    U16OfBE16(x / 0x1_0000);
    U16OfBE16(x % 0x1_0000);
    assert BE32(v)[2..] == BE16(x % 0x1_0000);
  }

  /** A value already in range is its own 32-bit reduction. */
  lemma Mod32Small(x: int)
    requires 0 <= x < 0x1_0000_0000
    ensures x % 0x1_0000_0000 == x
  {
  }

  /** getUint16 looks at the first two bytes only. */
  lemma U16Prefix(a: seq<byte>, b: seq<byte>)
    requires |a| >= 2
    ensures U16(a + b) == U16(a)
  {
  }

  /** A 16-bit count in front of a body reads back as the count, with the body after it. */
  lemma CountPrefix(n: nat, body: seq<byte>)
    requires n < 0x1_0000
    ensures |BE16(n) + body| >= 2 && U16(BE16(n) + body) == n && (BE16(n) + body)[2..] == body
  {
    U16Prefix(BE16(n), body);
    U16OfBE16(n);
  }

  /** getUint32 looks at the first four bytes only. */
  lemma U32Prefix(a: seq<byte>, b: seq<byte>)
    requires |a| >= 4
    ensures U32(a + b) == U32(a)
  {
    assert (a + b)[2..][..2] == a[2..][..2];
  }

  /** Writing a signed 32-bit value and reading it back with getInt32 gives the value. */
  lemma I32OfBE32(v: int)
    requires -0x8000_0000 <= v < 0x8000_0000
    ensures I32(BE32(v)) == v
  {
    U32OfBE32(v);
  }

  /** A byte pair is the quotient and remainder of its u16 by 256. */
  lemma Split8(hi: int, lo: int)
    requires 0 <= hi < 0x100 && 0 <= lo < 0x100
    ensures var x := hi * 0x100 + lo; x % 0x1_0000 == x && x / 0x100 == hi && x % 0x100 == lo
  {
  }

  /** A pair of u16 halves is the quotient and remainder of its u32 by 2^16. */
  lemma Split16(hi: int, lo: int)
    requires 0 <= hi < 0x1_0000 && 0 <= lo < 0x1_0000
    ensures var x := hi * 0x1_0000 + lo; x % 0x1_0000_0000 == x && x / 0x1_0000 == hi && x % 0x1_0000 == lo
  {
  }

  /** Reading two bytes and writing the value back reproduces them. */
  lemma BE16OfU16(s: seq<byte>)
    requires |s| >= 2
    ensures BE16(U16(s)) == s[..2]
  {
    Split8(s[0] as int, s[1] as int);
  }

  /** Reading four bytes and writing the value back reproduces them. */
  lemma BE32OfU32(s: seq<byte>)
    requires |s| >= 4
    ensures BE32(U32(s)) == s[..4]
  {
    var hi, lo := U16(s), U16(s[2..]);
    Split16(hi, lo);
    assert BE32(U32(s)) == BE16(hi) + BE16(lo);
    BE16OfU16(s);
    BE16OfU16(s[2..]);
  }


  /** A tagged message on the wire: tag, length (payload + the 4 length bytes), payload. */
  function Packet(tag: byte, body: seq<byte>): seq<byte> {
    [tag] + BE32(|body| + 4) + body
  }

  // ---------------------------------------------------------------- C strings

  /** writeString's layout: the bytes, then one NUL. */
  function CString(s: Text): seq<byte> {
    s + [0]
  }

  predicate NoNul(s: seq<byte>) {
    0 !in s
  }

  /**
   * readString's scan: the bytes before the first NUL and the bytes after
   * it, or None when `s` holds no NUL.
   */
  function SplitCString(s: seq<byte>): (r: Option<(Text, seq<byte>)>)
    ensures r.None? <==> NoNul(s)
    ensures r.Some? ==> NoNul(r.value.0) && s == CString(r.value.0) + r.value.1
  {
    if |s| == 0 then None
    else if s[0] == 0 then Some(([], s[1..]))
    else
      match SplitCString(s[1..])
      case None => None
      case Some((a, b)) => Some(([s[0]] + a, b))
  }

  /** A NUL-terminated string without inner NUL reads back as itself, and the scan stops right after it. */
  lemma {:induction false} SplitCStringOfCString(s: Text, t: seq<byte>)
    requires NoNul(s)
    ensures SplitCString(CString(s) + t) == Some((s, t))
  {
    if s == [] {
      assert CString(s) + t == [0] + t;
    } else {
      assert (CString(s) + t)[0] == s[0] != 0;
      assert (CString(s) + t)[1..] == CString(s[1..]) + t;
      SplitCStringOfCString(s[1..], t);
      assert [s[0]] + s[1..] == s;
    }
  }

  /** When the first NUL of s is at index i, the scan splits s there. */
  lemma SplitCStringAt(s: seq<byte>, i: nat)
    requires i < |s| && s[i] == 0
    requires forall k | 0 <= k < i :: s[k] != 0
    ensures SplitCString(s) == Some((s[..i], s[i + 1..]))
  {
    assert NoNul(s[..i]) by {
      forall k | 0 <= k < i ensures s[..i][k] != 0 {
      }
    }
    assert s == CString(s[..i]) + s[i + 1..];
    SplitCStringOfCString(s[..i], s[i + 1..]);
  }

  /** The NUL-terminated layout of a list of strings, one after the other. */
  function CStrings(ss: seq<Text>): seq<byte> {
    if ss == [] then [] else CString(ss[0]) + CStrings(ss[1..])
  }

  /** Reads `n` NUL-terminated strings off the front of `s`. */
  function SplitCStrings(s: seq<byte>, n: nat): Option<(seq<Text>, seq<byte>)>
    decreases n
  {
    if n == 0 then Some(([], s))
    else
      match SplitCString(s)
      case None => None
      case Some((a, rest)) =>
        match SplitCStrings(rest, n - 1)
        case None => None
        case Some((more, tail)) => Some(([a] + more, tail))
  }

  lemma {:induction false} SplitCStringsOfCStrings(ss: seq<Text>, t: seq<byte>)
    requires forall i | 0 <= i < |ss| :: NoNul(ss[i])
    ensures SplitCStrings(CStrings(ss) + t, |ss|) == Some((ss, t))
  {
    if ss != [] {
      assert CStrings(ss) + t == CString(ss[0]) + (CStrings(ss[1..]) + t);
      SplitCStringOfCString(ss[0], CStrings(ss[1..]) + t);
      SplitCStringsOfCStrings(ss[1..], t);
      assert [ss[0]] + ss[1..] == ss;
    } else {
      assert CStrings(ss) + t == t;
    }
  }
}

=== FILE: client.dfy ===
/**
 * The query side of the client (`client`, pegsocket.js:270-330): the
 * requests one query sends, the typed reading of a column value by its
 * type OID (`decodeByOid`), and the fold of one batch of response messages
 * into rows and an updated-row count (`toRows`).
 */
module Client {
  import opened Wrappers
  import opened Bytes
  import opened Framer
  import opened Decoders
  import Encoders

  // ------------------------------------------------------------ requests

  /** The messages one query sends: the extended protocol when there are parameters, a simple Query otherwise. */
  function Sent(sql: Text, params: Option<seq<Option<Text>>>): (r: seq<RawMessage>)
    ensures |r| == 1 || |r| == 6
    ensures |r| == 6 <==> params.Some? && |params.value| > 0
  {
    if params.Some? && |params.value| > 0 then
      [ RawMessage(Encoders.ParseTag, Encoders.ParseBody(sql, |params.value|)),
        RawMessage(Encoders.BindTag, Encoders.BindBody(params.value)),
        RawMessage(Encoders.DescribeTag, [Encoders.StatementKind, 0]),
        RawMessage(Encoders.ExecuteTag, [0] + BE32(0)),
        RawMessage(Encoders.CloseTag, [Encoders.StatementKind, 0]),
        RawMessage(Encoders.SyncTag, []) ]
    else
      [RawMessage(Encoders.QueryTag, CString(sql))]
  }

  /** The packets query(sql, params) hands to the connection, in order. */
  method Requests(sql: Text, params: Option<seq<Option<Text>>>) returns (packets: seq<seq<byte>>)
    ensures var ms := Sent(sql, params);
      |packets| == |ms| && forall i | 0 <= i < |ms| :: packets[i] == Packet(ms[i].tag, ms[i].data)
  {
    if params.Some? && |params.value| > 0 {
      var parse := Encoders.WriteParse(sql, |params.value|);
      var bind := Encoders.WriteBind(params.value);
      var describe := Encoders.WriteDescribe();
      var execute := Encoders.WriteExecute();
      var close := Encoders.WriteClose();
      var sync := Encoders.WriteSync();
      packets := [parse, bind, describe, execute, close, sync];
    } else {
      var query := Encoders.WriteQuery(sql);
      packets := [query];
    }
  }

  function Concat(packets: seq<seq<byte>>): seq<byte>
    decreases |packets|
  {
    if packets == [] then [] else packets[0] + Concat(packets[1..])
  }

  lemma {:induction false} ConcatPackets(packets: seq<seq<byte>>, ms: seq<RawMessage>)
    requires |packets| == |ms| && forall i | 0 <= i < |ms| :: packets[i] == Packet(ms[i].tag, ms[i].data)
    ensures Concat(packets) == Packets(ms)
    decreases |ms|
  {
    if ms != [] {
      ConcatPackets(packets[1..], ms[1..]);
    }
  }

  /** The server, framing the bytes of one query's requests, reads back exactly the messages sent. */
  lemma RequestsFrame(sql: Text, params: Option<seq<Option<Text>>>, packets: seq<seq<byte>>)
    requires Encodable(Sent(sql, params))
    requires var ms := Sent(sql, params);
      |packets| == |ms| && forall i | 0 <= i < |ms| :: packets[i] == Packet(ms[i].tag, ms[i].data)
    ensures Split(Concat(packets)) == Framed(Sent(sql, params), [])
  {
    var ms := Sent(sql, params);
    ConcatPackets(packets, ms);
    SplitPackets(ms, []);
    assert Packets(ms) + [] == Packets(ms);
    assert ms + [] == ms;
  }

  // ------------------------------------------------------------ decodeByOid

  const BoolOid := 16
  const Int8Oid := 20
  const Int2Oid := 21
  const Int4Oid := 23
  const TextOid := 25
  const Float4Oid := 700
  const Float8Oid := 701

  /** A column value as the client hands it out; floating-point text is kept unparsed. */
  datatype Value = Null | Bool(b: bool) | BigInt(i: int) | Float(text: Text) | Str(text: Text)

  datatype QueryError =
    | ServerError(err: ErrorFields)  // an ErrorResponse in the batch
    | NoRowDescription               // a DataRow with values before any RowDescription
    | BadInteger(text: Text)         // integer column text BigInt rejects

  predicate IsDigit(c: byte) {
    48 <= c <= 57
  }

  predicate AllDigits(s: seq<byte>) {
    forall i | 0 <= i < |s| :: IsDigit(s[i])
  }

  /** The number a run of decimal digits spells, most significant first. */
  function DigitsValue(s: seq<byte>): nat
    requires AllDigits(s)
    decreases |s|
  {
    if s == [] then 0 else DigitsValue(s[..|s| - 1]) * 10 + (s[|s| - 1] - 48) as nat
  }

  /** The decimal digits of n, as PostgreSQL prints an integer. */
  function Decimal(n: nat): (r: seq<byte>)
    ensures |r| > 0 && AllDigits(r)
  {
    if n < 10 then [(48 + n) as byte] else Decimal(n / 10) + [(48 + n % 10) as byte]
  }

  lemma {:induction false} DigitsValueOfDecimal(n: nat)
    ensures DigitsValue(Decimal(n)) == n
  {
    if n >= 10 {
      var d := Decimal(n);
      assert d[..|d| - 1] == Decimal(n / 10);
      DigitsValueOfDecimal(n / 10);
    }
  }

  const Minus: byte := 45
  const Plus: byte := 43

  /**
   * BigInt of the column text: empty text is 0; otherwise an optional sign
   * and at least one decimal digit, nothing else.
   */
  function ParseBigInt(s: Text): (r: Option<int>)
    ensures s == [] ==> r == Some(0)
    ensures AllDigits(s) ==> r == Some(DigitsValue(s))
  {
    if s == [] then Some(0)
    else if (s[0] == Minus || s[0] == Plus) && |s| > 1 && AllDigits(s[1..]) then
      var magnitude: int := DigitsValue(s[1..]);
      Some(if s[0] == Minus then -magnitude else magnitude)
    else if AllDigits(s) then Some(DigitsValue(s))
    else None
  }

  /** An integer printed in decimal, with or without a minus sign, reads back as itself. */
  lemma IntegerRoundTrip(n: int)
    ensures ParseBigInt(if n < 0 then [Minus] + Decimal(-n) else Decimal(n)) == Some(n)
  {
    if n < 0 {
      assert ([Minus] + Decimal(-n))[1..] == Decimal(-n);
      DigitsValueOfDecimal(-n);
    } else {
      DigitsValueOfDecimal(n);
    }
  }

  /** A sign alone, or any byte that is neither a sign nor a digit, is rejected. */
  lemma NotAnInteger(s: Text, i: nat)
    requires i < |s| && !IsDigit(s[i]) && (i > 0 || |s| == 1 || (s[0] != Minus && s[0] != Plus))
    ensures ParseBigInt(s) == None
  {
    if i > 0 {
      assert !AllDigits(s[1..]) by {
        assert s[1..][i - 1] == s[i];
      }
    }
  }

  /**
   * A column value read by its type OID (None: the column has no type OID,
   * as for a value past the described columns). NULL stays null whatever
   * the type; only integer text can fail.
   */
  function DecodeByOid(v: Option<seq<byte>>, oid: Option<nat>): (r: Result<Value, QueryError>)
    ensures v.None? ==> r == Ok(Null)
    ensures r.Err? <==> v.Some? && oid.Some? && oid.value in {Int8Oid, Int2Oid, Int4Oid} && ParseBigInt(v.value).None?
    ensures v.Some? && oid.Some? && oid.value in {Int8Oid, Int2Oid, Int4Oid} && ParseBigInt(v.value).Some?
      ==> r == Ok(BigInt(ParseBigInt(v.value).value))
  {
    match v
    case None => Ok(Null)
    case Some(b) =>
      if oid == Some(BoolOid) then Ok(Bool(|b| > 0 && b[0] == 116))
      else if oid == Some(Int8Oid) || oid == Some(Int2Oid) || oid == Some(Int4Oid) then
        match ParseBigInt(b)
        case None => Err(BadInteger(b))
        case Some(i) => Ok(BigInt(i))
      else if oid == Some(Float4Oid) || oid == Some(Float8Oid) then Ok(Float(b))
      else Ok(Str(b))
  }

  /** Booleans: a value is true exactly when its first byte is 't'; so PostgreSQL's 't' is true and 'f' is false. */
  lemma BoolColumns(b: seq<byte>)
    ensures DecodeByOid(Some(b), Some(BoolOid)) == Ok(Bool(|b| > 0 && b[0] == 116))
    ensures DecodeByOid(Some(Ascii("t")), Some(BoolOid)) == Ok(Bool(true))
    ensures DecodeByOid(Some(Ascii("f")), Some(BoolOid)) == Ok(Bool(false))
  {
    assert Ascii("t")[0] == 116;
    assert Ascii("f")[0] == 102;
  }

  /** int2, int4 and int8 columns give back the integer the server printed. */
  lemma IntegerColumns(n: int, oid: nat)
    requires oid in {Int8Oid, Int2Oid, Int4Oid}
    ensures DecodeByOid(Some(if n < 0 then [Minus] + Decimal(-n) else Decimal(n)), Some(oid)) == Ok(BigInt(n))
  {
    IntegerRoundTrip(n);
  }

  /** Any type the client does not know is handed out as text, unchanged. */
  lemma OtherColumnsAreText(b: seq<byte>, oid: Option<nat>)
    requires oid.None? || oid.value !in {BoolOid, Int8Oid, Int2Oid, Int4Oid, Float4Oid, Float8Oid}
    ensures DecodeByOid(Some(b), oid) == Ok(Str(b))
  {
  }

  // ------------------------------------------------------------ toRows

  type Row = map<Text, Value>

  /** The property name a column value lands under: the column's name, or "undefined" past the described columns. */
  function ColumnName(names: seq<Text>, i: nat): Text {
    if i < |names| then names[i] else Ascii("undefined")
  }

  function ColumnOid(oids: seq<nat>, i: nat): Option<nat> {
    if i < |oids| then Some(oids[i]) else None
  }

  /**
   * The name of Object.prototype's accessor for an object's prototype: while
   * an object still has Object.prototype as its prototype, assigning to
   * `__proto__` runs that accessor and creates no property.
   */
  function Proto(): Text {
    Ascii("__proto__")
  }

  /**
   * The object a DataRow is turned into: its own properties, and whether its
   * prototype has been replaced by null.
   */
  datatype RowObject = RowObject(props: Row, nullProto: bool)

  /**
   * `o[name] = x` for a value decodeByOid returns, which is null or a
   * primitive. While the prototype is Object.prototype, `__proto__` reaches
   * the inherited setter: null replaces the prototype, a primitive is
   * ignored, and neither creates a property. Once the prototype is null,
   * `__proto__` is an ordinary name.
   */
  function Assign(o: RowObject, name: Text, x: Value): RowObject {
    if name == Proto() && !o.nullProto then RowObject(o.props, x == Null)
    else RowObject(o.props[name := x], o.nullProto)
  }

  /** Some value among these, for a column named `__proto__`, is NULL: it has nulled the prototype. */
  predicate ProtoNulled(names: seq<Text>, values: seq<Option<seq<byte>>>) {
    exists j | 0 <= j < |values| :: ColumnName(names, j) == Proto() && values[j].None?
  }

  /** Some column named `__proto__` comes after the prototype was nulled: its value is an own property. */
  predicate ProtoStored(names: seq<Text>, values: seq<Option<seq<byte>>>) {
    exists k | 0 <= k < |values| :: ColumnName(names, k) == Proto() && ProtoNulled(names, values[..k])
  }

  /**
   * One DataRow turned into an object, value by value in column order, as
   * the reduce does it: each value is assigned under its column's name, so
   * a later column overwrites an earlier one of the same name. The
   * description is only consulted once there is a value.
   */
  function BuildRow(desc: Option<(seq<Text>, seq<nat>)>, values: seq<Option<seq<byte>>>): (r: Result<RowObject, QueryError>)
    ensures values == [] ==> r == Ok(RowObject(map[], false))
    ensures values != [] && desc.None? ==> r == Err(NoRowDescription)
    ensures r.Ok? && values != [] ==>
      forall j | 0 <= j < |values| :: DecodeByOid(values[j], ColumnOid(desc.value.1, j)).Ok?
    ensures desc.Some? && (forall j | 0 <= j < |values| :: DecodeByOid(values[j], ColumnOid(desc.value.1, j)).Ok?)
      ==> r.Ok?
    decreases |values|
  {
    if values == [] then Ok(RowObject(map[], false))
    else
      var i := |values| - 1;
      match BuildRow(desc, values[..i])
      case Err(e) => Err(e)
      case Ok(o) =>
        match desc
        case None => Err(NoRowDescription)
        case Some((names, oids)) =>
          match DecodeByOid(values[i], ColumnOid(oids, i))
          case Err(e) => Err(e)
          case Ok(x) => Ok(Assign(o, ColumnName(names, i), x))
  }

  lemma ProtoNulledSnoc(names: seq<Text>, values: seq<Option<seq<byte>>>)
    requires values != []
    ensures ProtoNulled(names, values) <==>
      ProtoNulled(names, values[..|values| - 1])
      || (ColumnName(names, |values| - 1) == Proto() && values[|values| - 1].None?)
  {
    var init := values[..|values| - 1];
    if ProtoNulled(names, values) {
      var j :| 0 <= j < |values| && ColumnName(names, j) == Proto() && values[j].None?;
      if j < |init| {
        assert init[j] == values[j];
      }
    }
    if ProtoNulled(names, init) {
      var j :| 0 <= j < |init| && ColumnName(names, j) == Proto() && init[j].None?;
      assert values[j] == init[j];
    }
  }

  lemma ProtoStoredSnoc(names: seq<Text>, values: seq<Option<seq<byte>>>)
    requires values != []
    ensures ProtoStored(names, values) <==>
      ProtoStored(names, values[..|values| - 1])
      || (ColumnName(names, |values| - 1) == Proto() && ProtoNulled(names, values[..|values| - 1]))
  {
    var init := values[..|values| - 1];
    if ProtoStored(names, values) {
      var k :| 0 <= k < |values| && ColumnName(names, k) == Proto() && ProtoNulled(names, values[..k]);
      if k < |init| {
        assert init[..k] == values[..k];
      }
    }
    if ProtoStored(names, init) {
      var k :| 0 <= k < |init| && ColumnName(names, k) == Proto() && ProtoNulled(names, init[..k]);
      assert values[..k] == init[..k];
    }
  }

  /**
   * The prototype is null exactly when a `__proto__` column had a NULL
   * value, and the row owns a `__proto__` property exactly when a later
   * `__proto__` column followed that one.
   */
  lemma {:induction false} RowProto(names: seq<Text>, oids: seq<nat>, values: seq<Option<seq<byte>>>)
    requires BuildRow(Some((names, oids)), values).Ok?
    ensures BuildRow(Some((names, oids)), values).value.nullProto == ProtoNulled(names, values)
    ensures Proto() in BuildRow(Some((names, oids)), values).value.props <==> ProtoStored(names, values)
    decreases |values|
  {
    if values != [] {
      var i := |values| - 1;
      RowProto(names, oids, values[..i]);
      ProtoNulledSnoc(names, values);
      ProtoStoredSnoc(names, values);
    }
  }

  /**
   * The row handed out: the object's own properties. It is built exactly
   * when every value decodes by its column's type under a description, and
   * it has a `__proto__` property only after the prototype was nulled.
   */
  function DecodeRow(desc: Option<(seq<Text>, seq<nat>)>, values: seq<Option<seq<byte>>>): (r: Result<Row, QueryError>)
    ensures values != [] && desc.None? ==> r == Err(NoRowDescription)
    ensures r.Ok? ==> (Proto() in r.value <==> desc.Some? && ProtoStored(desc.value.0, values))
    ensures r.Ok? && values != [] ==>
      forall j | 0 <= j < |values| :: DecodeByOid(values[j], ColumnOid(desc.value.1, j)).Ok?
    ensures desc.Some? && (forall j | 0 <= j < |values| :: DecodeByOid(values[j], ColumnOid(desc.value.1, j)).Ok?)
      ==> r.Ok?
  {
    match BuildRow(desc, values)
    case Err(e) => Err(e)
    case Ok(o) =>
      if desc.Some? then
        RowProto(desc.value.0, desc.value.1, values);
        Ok(o.props)
      else Ok(o.props)
  }

  /**
   * The row has exactly one property per distinct column name; `__proto__`
   * is among them only once a NULL `__proto__` value has nulled the prototype
   * and another `__proto__` column follows.
   */
  lemma {:induction false} RowKeys(names: seq<Text>, oids: seq<nat>, values: seq<Option<seq<byte>>>)
    requires DecodeRow(Some((names, oids)), values).Ok?
    ensures DecodeRow(Some((names, oids)), values).value.Keys
         == (set j | 0 <= j < |values| :: ColumnName(names, j)) - (if ProtoStored(names, values) then {} else {Proto()})
    decreases |values|
  {
    if values != [] {
      var i := |values| - 1;
      RowKeys(names, oids, values[..i]);
      RowProto(names, oids, values[..i]);
      ProtoStoredSnoc(names, values);
      var before := set j | 0 <= j < i :: ColumnName(names, j);
      var after := set j | 0 <= j < |values| :: ColumnName(names, j);
      assert after == before + {ColumnName(names, i)} by {
        forall k | k in after ensures k in before + {ColumnName(names, i)} {
          var j :| 0 <= j < |values| && k == ColumnName(names, j);
          if j < i {
            assert k in before;
          }
        }
        forall k | k in before ensures k in after {
          var j :| 0 <= j < i && k == ColumnName(names, j);
          assert ColumnName(names, j) in after;
        }
      }
    }
  }

  /**
   * A value lands under its column's name unless a later column of the same
   * name overwrites it, or the name is `__proto__` and the prototype has not
   * been nulled before it.
   */
  lemma {:induction false} RowLookup(names: seq<Text>, oids: seq<nat>, values: seq<Option<seq<byte>>>, i: nat)
    requires DecodeRow(Some((names, oids)), values).Ok? && i < |values|
    requires ColumnName(names, i) != Proto() || ProtoNulled(names, values[..i])
    requires forall j | i < j < |values| :: ColumnName(names, j) != ColumnName(names, i)
    ensures DecodeByOid(values[i], ColumnOid(oids, i)).Ok?
    ensures ColumnName(names, i) in DecodeRow(Some((names, oids)), values).value
    ensures DecodeRow(Some((names, oids)), values).value[ColumnName(names, i)]
         == DecodeByOid(values[i], ColumnOid(oids, i)).value
    decreases |values|
  {
    var last := |values| - 1;
    if i < last {
      assert values[..last][i] == values[i];
      assert values[..last][..i] == values[..i];
      RowLookup(names, oids, values[..last], i);
    } else {
      RowProto(names, oids, values[..last]);
    }
  }

  /**
   * `SELECT NULL AS "__proto__", 'x' AS "__proto__"` gives a row whose own
   * `__proto__` property is 'x'; with 'y' in place of the NULL, the row has
   * no property at all.
   */
  lemma ProtoAfterNull(x: seq<byte>, y: seq<byte>)
    ensures DecodeRow(Some(([Proto(), Proto()], [TextOid, TextOid])), [None, Some(x)]) == Ok(map[Proto() := Str(x)])
    ensures DecodeRow(Some(([Proto(), Proto()], [TextOid, TextOid])), [Some(y), Some(x)]) == Ok(map[])
  {
    var names := [Proto(), Proto()];
    assert [None, Some(x)][..1] == [None];
    assert [Some(y), Some(x)][..1] == [Some(y)];
    assert BuildRow(Some((names, [TextOid, TextOid])), [None]) == Ok(RowObject(map[], true));
    assert BuildRow(Some((names, [TextOid, TextOid])), [Some(y)]) == Ok(RowObject(map[], false));
  }

  /** The result being built: the last RowDescription, the rows so far and the last updated count. */
  datatype Acc = Acc(desc: Option<(seq<Text>, seq<nat>)>, rows: seq<Row>, updated: nat)

  const Start := Acc(None, [], 0)

  /** The tags whose CommandComplete carries a count of changed rows, each with its trailing space. */
  function CountingCommands(): seq<Text> {
    [Ascii("INSERT "), Ascii("UPDATE "), Ascii("DELETE ")]
  }

  predicate StartsWith(s: Text, prefix: Text) {
    |prefix| <= |s| && s[..|prefix|] == prefix
  }

  const Space: byte := 32

  /** What tag.split(' ') ends with: the bytes after the last space. */
  function LastWord(s: Text): (r: Text)
    ensures Space !in r
    ensures |r| <= |s| && r == s[|s| - |r|..]
    ensures |r| == |s| || s[|s| - |r| - 1] == Space
    decreases |s|
  {
    if s == [] then []
    else if s[|s| - 1] == Space then []
    else LastWord(s[..|s| - 1]) + [s[|s| - 1]]
  }

  /** The leading decimal digits of s. */
  function DigitPrefix(s: seq<byte>): (r: seq<byte>)
    ensures AllDigits(r) && |r| <= |s| && r == s[..|r|]
    ensures |r| == |s| || !IsDigit(s[|r|])
    decreases |s|
  {
    if s == [] || !IsDigit(s[0]) then [] else [s[0]] + DigitPrefix(s[1..])
  }

  /** The text after one leading sign, if there is one. */
  function Unsigned(s: Text): (r: Text)
    ensures |s| > 0 && (s[0] == Minus || s[0] == Plus) ==> r == s[1..]
    ensures |s| == 0 || (s[0] != Minus && s[0] != Plus) ==> r == s
  {
    if |s| > 0 && (s[0] == Minus || s[0] == Plus) then s[1..] else s
  }

  /** parseInt: an optional sign and the leading decimal digits; None (NaN) when there are none. */
  function ParseInt(s: Text): (r: Option<int>)
    ensures r.Some? <==> DigitPrefix(Unsigned(s)) != []
    ensures r.Some? ==> r.value == (if |s| > 0 && s[0] == Minus then -1 else 1) * DigitsValue(DigitPrefix(Unsigned(s)))
    ensures |s| > 0 && IsDigit(s[0]) ==> r.Some? && r.value >= 0
    ensures |s| > 1 && s[0] == Minus && IsDigit(s[1]) ==> r.Some? && r.value <= 0
    ensures |s| == 0 || (!IsDigit(s[0]) && s[0] != Minus && s[0] != Plus) ==> r.None?
    ensures AllDigits(s) && |s| > 0 ==> r == Some(DigitsValue(s))
  {
    var negative := |s| > 0 && s[0] == Minus;
    var unsigned := Unsigned(s);
    var digits := DigitPrefix(unsigned);
    if digits == [] then None
    else
      var magnitude: int := DigitsValue(digits);
      assert AllDigits(s) ==> digits == s by {
        if AllDigits(s) {
          DigitPrefixOfDigits(s);
        }
      }
      Some(if negative then -magnitude else magnitude)
  }

  /**
   * The updated count a CommandComplete tag gives: for INSERT, UPDATE and
   * DELETE the number its last word starts with, when positive; 0 otherwise.
   */
  function RowCount(tag: Text): (r: nat)
    ensures r > 0 ==> exists c | c in CountingCommands() :: StartsWith(tag, c)
    ensures r > 0 ==> ParseInt(LastWord(tag)) == Some(r)
  {
    if exists c | c in CountingCommands() :: StartsWith(tag, c) then
      match ParseInt(LastWord(tag))
      case Some(n) => if n > 0 then n else 0
      case None => 0
    else 0
  }

  /**
   * toRows on one message: an ErrorResponse throws, a RowDescription becomes
   * the description, a DataRow adds one row, a CommandComplete sets the count.
   */
  function ToRowsStep(acc: Acc, m: Message): (r: Result<Acc, QueryError>)
    ensures m.ErrorResponse? ==> r == Err(ServerError(m.err))
    ensures m.RowDescription? ==> r == Ok(acc.(desc := Some((m.names, m.oids))))
    ensures m.DataRow? ==> (r.Ok? <==> DecodeRow(acc.desc, m.values).Ok?)
    ensures m.DataRow? && r.Ok? ==> r.value == acc.(rows := acc.rows + [DecodeRow(acc.desc, m.values).value])
    ensures m.CommandComplete? ==> r == Ok(acc.(updated := RowCount(m.tag)))
    ensures m.Authentication? ==> r == Ok(acc)
    ensures r.Err? ==> m.ErrorResponse? || (m.DataRow? && DecodeRow(acc.desc, m.values).Err?)
    ensures r.Ok? ==> (|r.value.rows| == |acc.rows| + (if m.DataRow? then 1 else 0)
                       && r.value.rows[..|acc.rows|] == acc.rows)
    ensures r.Ok? && !m.CommandComplete? ==> r.value.updated == acc.updated
  {
    match m
    case ErrorResponse(err) => Err(ServerError(err))
    case RowDescription(names, oids) => Ok(acc.(desc := Some((names, oids))))
    case DataRow(values) =>
      (match DecodeRow(acc.desc, values)
       case Err(e) => Err(e)
       case Ok(row) => Ok(acc.(rows := acc.rows + [row])))
    case CommandComplete(tag) => Ok(acc.(updated := RowCount(tag)))
    case Authentication(_) => Ok(acc)
  }

  /** responses.reduce(toRows, {}): the messages folded in order; the first failure ends the fold. */
  function ToRows(acc: Acc, ms: seq<Message>): (r: Result<Acc, QueryError>)
    ensures r.Ok? ==> forall i | 0 <= i < |ms| :: !ms[i].ErrorResponse?
    ensures r.Ok? ==> |r.value.rows| >= |acc.rows| && r.value.rows[..|acc.rows|] == acc.rows
    decreases |ms|
  {
    if ms == [] then Ok(acc)
    else
      var init := ms[..|ms| - 1];
      match ToRows(acc, init)
      case Err(e) => Err(e)
      case Ok(a) =>
        var r := ToRowsStep(a, ms[|ms| - 1]);
        if r.Err? then r
        else
          NoErrorsSnoc(ms, init);
          PrefixOfPrefix(r.value.rows, a.rows, acc.rows);
          r
  }

  /** No ErrorResponse among the messages before the last, nor the last: none at all. */
  lemma NoErrorsSnoc(ms: seq<Message>, init: seq<Message>)
    requires ms != [] && init == ms[..|ms| - 1] && !ms[|ms| - 1].ErrorResponse?
    requires forall i | 0 <= i < |init| :: !init[i].ErrorResponse?
    ensures forall i | 0 <= i < |ms| :: !ms[i].ErrorResponse?
  {
    forall i | 0 <= i < |ms| - 1 ensures !ms[i].ErrorResponse? {
      assert ms[i] == init[i];
    }
  }

  lemma PrefixOfPrefix<T>(a: seq<T>, b: seq<T>, c: seq<T>)
    requires |c| <= |b| <= |a| && a[..|b|] == b && b[..|c|] == c
    ensures a[..|c|] == c
  {
    assert a[..|c|] == a[..|b|][..|c|];
  }

  datatype QueryResult = QueryResult(rows: seq<Row>, updated: nat)

  /** What query resolves to, or the error it rejects with. */
  function Query(responses: seq<Message>): (r: Result<QueryResult, QueryError>)
    ensures r.Ok? ==> forall i | 0 <= i < |responses| :: !responses[i].ErrorResponse?
    ensures r.Ok? ==> |r.value.rows| == CountDataRows(responses) && r.value.updated == LastCount(responses)
    ensures Succeeds(None, responses) ==> r.Ok?
  {
    ToRowsSucceeds(Start, responses);
    match ToRows(Start, responses)
    case Err(e) => Err(e)
    case Ok(acc) =>
      OneRowPerDataRow(Start, responses);
      UpdatedIsLastCount(responses);
      Ok(QueryResult(acc.rows, acc.updated))
  }

  // ------------------------------------------------------------ properties of toRows

  function CountDataRows(ms: seq<Message>): nat
    decreases |ms|
  {
    if ms == [] then 0 else CountDataRows(ms[..|ms| - 1]) + (if ms[|ms| - 1].DataRow? then 1 else 0)
  }

  /** One row per DataRow, none lost and none invented. */
  lemma {:induction false} OneRowPerDataRow(acc: Acc, ms: seq<Message>)
    requires ToRows(acc, ms).Ok?
    ensures |ToRows(acc, ms).value.rows| == |acc.rows| + CountDataRows(ms)
    decreases |ms|
  {
    if ms != [] {
      OneRowPerDataRow(acc, ms[..|ms| - 1]);
    }
  }

  /** Once the fold has failed, further messages do not change the failure. */
  lemma {:induction false} FailureSticks(acc: Acc, ms: seq<Message>, more: seq<Message>)
    requires ToRows(acc, ms).Err?
    ensures ToRows(acc, ms + more) == ToRows(acc, ms)
    decreases |more|
  {
    if more == [] {
      assert ms + more == ms;
    } else {
      var init := more[..|more| - 1];
      assert (ms + more)[..|ms + more| - 1] == ms + init;
      FailureSticks(acc, ms, init);
    }
  }

  /** An ErrorResponse anywhere in the batch makes the query fail. */
  lemma ErrorFails(ms: seq<Message>, i: nat)
    requires i < |ms| && ms[i].ErrorResponse?
    ensures Query(ms).Err?
  {
    var upTo := ms[..i + 1];
    assert upTo[..i] == ms[..i];
    assert ToRows(Start, upTo).Err?;
    FailureSticks(Start, upTo, ms[i + 1..]);
    assert upTo + ms[i + 1..] == ms;
  }

  /** When nothing failed before it, the query fails with that ErrorResponse's fields. */
  lemma FirstErrorReported(ms: seq<Message>, i: nat)
    requires i < |ms| && ms[i].ErrorResponse? && ToRows(Start, ms[..i]).Ok?
    ensures Query(ms) == Err(ServerError(ms[i].err))
  {
    var upTo := ms[..i + 1];
    assert upTo[..i] == ms[..i];
    FailureSticks(Start, upTo, ms[i + 1..]);
    assert upTo + ms[i + 1..] == ms;
  }

  /** The updated count of the last CommandComplete, 0 when there is none. */
  function LastCount(ms: seq<Message>): nat
    decreases |ms|
  {
    if ms == [] then 0
    else if ms[|ms| - 1].CommandComplete? then RowCount(ms[|ms| - 1].tag)
    else LastCount(ms[..|ms| - 1])
  }

  /** The updated count a query reports is that of its last CommandComplete. */
  lemma {:induction false} UpdatedIsLastCount(ms: seq<Message>)
    requires ToRows(Start, ms).Ok?
    ensures ToRows(Start, ms).value.updated == LastCount(ms)
    decreases |ms|
  {
    if ms != [] {
      UpdatedIsLastCount(ms[..|ms| - 1]);
    }
  }

  /** The description in force after the messages: the last RowDescription among them, else the one before. */
  function DescAfter(desc: Option<(seq<Text>, seq<nat>)>, ms: seq<Message>): Option<(seq<Text>, seq<nat>)>
    decreases |ms|
  {
    if ms == [] then desc
    else if ms[|ms| - 1].RowDescription? then Some((ms[|ms| - 1].names, ms[|ms| - 1].oids))
    else DescAfter(desc, ms[..|ms| - 1])
  }

  /**
   * Nothing in the batch makes toRows throw: no ErrorResponse, and every
   * DataRow's values decode under the description in force when it arrives.
   */
  predicate Succeeds(desc: Option<(seq<Text>, seq<nat>)>, ms: seq<Message>) {
    && (forall i | 0 <= i < |ms| :: !ms[i].ErrorResponse?)
    && (forall i | 0 <= i < |ms| && ms[i].DataRow? :: DecodeRow(DescAfter(desc, ms[..i]), ms[i].values).Ok?)
  }

  /** The fold keeps as its description the last RowDescription seen. */
  lemma {:induction false} ToRowsDesc(acc: Acc, ms: seq<Message>)
    requires ToRows(acc, ms).Ok?
    ensures ToRows(acc, ms).value.desc == DescAfter(acc.desc, ms)
    decreases |ms|
  {
    if ms != [] {
      ToRowsDesc(acc, ms[..|ms| - 1]);
    }
  }

  /** The fold succeeds whenever nothing in the batch throws. */
  lemma {:induction false} ToRowsSucceeds(acc: Acc, ms: seq<Message>)
    ensures Succeeds(acc.desc, ms) ==> ToRows(acc, ms).Ok?
    decreases |ms|
  {
    if ms != [] && Succeeds(acc.desc, ms) {
      var init := ms[..|ms| - 1];
      assert Succeeds(acc.desc, init) by {
        forall i | 0 <= i < |init| ensures !init[i].ErrorResponse? {
          assert init[i] == ms[i];
        }
        forall i | 0 <= i < |init| && init[i].DataRow?
          ensures DecodeRow(DescAfter(acc.desc, init[..i]), init[i].values).Ok?
        {
          assert init[i] == ms[i] && init[..i] == ms[..i];
        }
      }
      ToRowsSucceeds(acc, init);
      ToRowsDesc(acc, init);
    }
  }

  /** Folding a + b is folding a, then folding b from where a left off. */
  lemma {:induction false} ToRowsAppend(acc: Acc, a: seq<Message>, b: seq<Message>)
    requires ToRows(acc, a).Ok?
    ensures ToRows(acc, a + b) == ToRows(ToRows(acc, a).value, b)
    decreases |b|
  {
    if b == [] {
      assert a + b == a;
    } else {
      var init := b[..|b| - 1];
      assert (a + b)[..|a + b| - 1] == a + init;
      ToRowsAppend(acc, a, init);
    }
  }

  /** A fold that succeeds succeeded on every prefix, whose rows come first. */
  lemma PrefixOk(acc: Acc, ms: seq<Message>, k: nat)
    requires ToRows(acc, ms).Ok? && k <= |ms|
    ensures ToRows(acc, ms[..k]).Ok?
    ensures |ToRows(acc, ms[..k]).value.rows| <= |ToRows(acc, ms).value.rows|
    ensures ToRows(acc, ms).value.rows[..|ToRows(acc, ms[..k]).value.rows|] == ToRows(acc, ms[..k]).value.rows
  {
    assert ms[..k] + ms[k..] == ms;
    if ToRows(acc, ms[..k]).Err? {
      FailureSticks(acc, ms[..k], ms[k..]);
    }
    ToRowsAppend(acc, ms[..k], ms[k..]);
  }

  /** Folding a DataRow appends the row its values build under the description in force. */
  lemma DataRowStep(acc: Acc, ms: seq<Message>, i: nat)
    requires i < |ms| && ms[i].DataRow? && ToRows(acc, ms[..i + 1]).Ok?
    ensures ToRows(acc, ms[..i]).Ok?
    ensures DecodeRow(DescAfter(acc.desc, ms[..i]), ms[i].values).Ok?
    ensures ToRows(acc, ms[..i + 1]).value.rows
         == ToRows(acc, ms[..i]).value.rows + [DecodeRow(DescAfter(acc.desc, ms[..i]), ms[i].values).value]
  {
    assert ms[..i + 1][..i] == ms[..i];
    ToRowsDesc(acc, ms[..i]);
  }

  /**
   * The row a DataRow adds: the one built from its values under the
   * description in force when it arrives, placed after the rows of the
   * DataRows before it.
   */
  lemma RowOfDataRow(acc: Acc, ms: seq<Message>, i: nat)
    requires ToRows(acc, ms).Ok? && i < |ms| && ms[i].DataRow?
    ensures DecodeRow(DescAfter(acc.desc, ms[..i]), ms[i].values).Ok?
    ensures |acc.rows| + CountDataRows(ms[..i]) < |ToRows(acc, ms).value.rows|
    ensures ToRows(acc, ms).value.rows[|acc.rows| + CountDataRows(ms[..i])]
         == DecodeRow(DescAfter(acc.desc, ms[..i]), ms[i].values).value
  {
    PrefixOk(acc, ms, i + 1);
    DataRowStep(acc, ms, i);
    OneRowPerDataRow(acc, ms[..i]);
    var mid := ToRows(acc, ms[..i + 1]).value.rows;
    IndexInPrefix(ToRows(acc, ms).value.rows, mid, |acc.rows| + CountDataRows(ms[..i]));
  }

  lemma IndexInPrefix<T>(a: seq<T>, b: seq<T>, k: nat)
    requires k < |b| <= |a| && a[..|b|] == b
    ensures a[k] == b[k]
  {
    assert a[k] == a[..|b|][k];
  }

  /**
   * A query's rows: the row for the DataRow at position i is the one its
   * values build under the last RowDescription before it, and it comes
   * after the rows of the earlier DataRows.
   */
  lemma QueryRows(responses: seq<Message>, i: nat)
    requires Query(responses).Ok? && i < |responses| && responses[i].DataRow?
    ensures DecodeRow(DescAfter(None, responses[..i]), responses[i].values).Ok?
    ensures CountDataRows(responses[..i]) < |Query(responses).value.rows|
    ensures Query(responses).value.rows[CountDataRows(responses[..i])]
         == DecodeRow(DescAfter(None, responses[..i]), responses[i].values).value
  {
    RowOfDataRow(Start, responses, i);
  }

  // ------------------------------------------------------------ properties of the row count

  lemma {:induction false} DigitPrefixOfDigits(s: seq<byte>)
    requires AllDigits(s)
    ensures DigitPrefix(s) == s
    decreases |s|
  {
    if s != [] {
      DigitPrefixOfDigits(s[1..]);
    }
  }

  lemma {:induction false} LastWordAfterSpace(prefix: Text, word: Text)
    requires |prefix| > 0 && prefix[|prefix| - 1] == Space && Space !in word
    ensures LastWord(prefix + word) == word
    decreases |word|
  {
    if word == [] {
      assert prefix + word == prefix;
    } else {
      var init := word[..|word| - 1];
      assert (prefix + word)[..|prefix + word| - 1] == prefix + init;
      LastWordAfterSpace(prefix, init);
    }
  }

  lemma ParseIntOfDecimal(n: nat)
    ensures ParseInt(Decimal(n)) == Some(n)
  {
    DigitPrefixOfDigits(Decimal(n));
    DigitsValueOfDecimal(n);
  }

  /** Each counting command ends in its space. */
  lemma CommandEndsInSpace(command: Text)
    requires command in CountingCommands()
    ensures |command| > 0 && command[|command| - 1] == Space
  {
    if command == Ascii("INSERT ") {
      assert command[6] == Space;
    } else if command == Ascii("UPDATE ") {
      assert command[6] == Space;
    } else {
      assert command[6] == Space;
    }
  }

  /** The last word of a tag ending in a number is that number. */
  lemma LastWordOfCount(prefix: Text, n: nat)
    requires |prefix| > 0 && prefix[|prefix| - 1] == Space
    ensures ParseInt(LastWord(prefix + Decimal(n))) == Some(n as int)
  {
    assert Space !in Decimal(n) by {
      forall i | 0 <= i < |Decimal(n)| ensures Decimal(n)[i] != Space {
        assert IsDigit(Decimal(n)[i]);
      }
    }
    LastWordAfterSpace(prefix, Decimal(n));
    ParseIntOfDecimal(n);
  }

  /** "INSERT 0 n", "UPDATE n" and "DELETE n" report n rows. */
  lemma RowCountOfTag(command: Text, words: Text, n: nat)
    requires command in CountingCommands()
    requires words == [] || words[|words| - 1] == Space
    ensures RowCount(command + words + Decimal(n)) == n
  {
    var prefix := command + words;
    var tag := prefix + Decimal(n);
    AppendAssoc(command, words, Decimal(n));
    StartsWithAppend(command, words + Decimal(n));
    CommandEndsInSpace(command);
    assert prefix[|prefix| - 1] == Space;
    LastWordOfCount(prefix, n);
    CountOfCountingTag(tag, command, n);
  }

  lemma StartsWithAppend(a: Text, b: Text)
    ensures StartsWith(a + b, a)
  {
    assert (a + b)[..|a|] == a;
  }

  lemma CountOfCountingTag(tag: Text, command: Text, n: nat)
    requires command in CountingCommands() && StartsWith(tag, command)
    requires ParseInt(LastWord(tag)) == Some(n as int)
    ensures RowCount(tag) == n
  {
  }

  /** Tags other than INSERT, UPDATE and DELETE (a SELECT, say) report no updated rows. */
  lemma OtherTagsCountNothing(tag: Text)
    requires forall c | c in CountingCommands() :: !StartsWith(tag, c)
    ensures RowCount(tag) == 0
  {
  }
}

=== FILE: decoders.dfy ===
/**
 * The backend messages the client understands (`protocol.read*`,
 * pegsocket.js:211-250). Each decoder reads a message body through a
 * buffer's cursor; the Decode* functions say what it yields, with None for
 * a body that runs out before the decoder is done (the byte view's
 * RangeError). The lemmas decode the layouts PostgreSQL sends.
 */
module Decoders {
  import opened Wrappers
  import opened Bytes
  import opened ByteBuffer
  import opened Framer
  import Encoders

  /** The ErrorResponse fields the client keeps: severity (V), code (C), message (M), detail (D). */
  datatype ErrorFields = ErrorFields(severity: Option<Text>, code: Option<Text>, message: Option<Text>, detail: Option<Text>)

  const NoFields := ErrorFields(None, None, None, None)

  datatype Message =
    | Authentication(ok: bool)
    | RowDescription(names: seq<Text>, oids: seq<nat>)
    | DataRow(values: seq<Option<seq<byte>>>)
    | CommandComplete(tag: Text)
    | ErrorResponse(err: ErrorFields)

  function Min(a: nat, b: nat): nat {
    if a <= b then a else b
  }

  /**
   * read(n) as the decoders see it: the next n bytes are skipped. Skipping
   * past the end leaves nothing to read, and every later read fails, just
   * as when the source's cursor ends up beyond the last byte.
   */
  function Skipped(s: seq<byte>, n: nat): (r: seq<byte>)
    ensures |r| == if n <= |s| then |s| - n else 0
  {
    if n <= |s| then s[n..] else []
  }

  method Skip(msg: Buffer, n: nat)
    requires msg.Valid()
    modifies msg`pos
    ensures msg.Valid() && msg.Remaining() == Skipped(old(msg.Remaining()), n)
  {
    if n <= msg.Available() {
      msg.Read(n);
    } else {
      msg.Read(msg.Available());
    }
  }

  // ------------------------------------------------------------ Authentication

  /** AuthenticationOk carries the code 0; any other code is a request the client cannot answer. */
  function DecodeAuthentication(s: seq<byte>): Option<Message> {
    if |s| < 4 then None else Some(Authentication(U32(s) == 0))
  }

  method ReadAuthentication(msg: Buffer) returns (r: Option<Message>)
    requires msg.Valid()
    modifies msg`pos
    ensures msg.Valid() && r == DecodeAuthentication(old(msg.Remaining()))
  {
    if msg.Available() < 4 {
      return None;
    }
    var code := msg.ReadUint32();
    return Some(Authentication(code == 0));
  }

  /** An Authentication message is ok exactly when its code is 0; what follows the code is ignored. */
  lemma AuthenticationOk(code: nat, rest: seq<byte>)
    requires code < 0x1_0000_0000
    ensures DecodeAuthentication(BE32(code) + rest) == Some(Authentication(code == 0))
  {
    U32Prefix(BE32(code), rest);
    U32OfBE32(code);
    Mod32Small(code);
  }

  // ------------------------------------------------------------ RowDescription

  /**
   * One column description: the name, six skipped bytes (table OID and
   * column number), the type OID, and eight skipped bytes (type size, type
   * modifier, format code). The skips may run past the end.
   */
  function DecodeColumn(s: seq<byte>): Option<(Text, nat, seq<byte>)> {
    match SplitCString(s)
    case None => None
    case Some((name, afterName)) =>
      var r := Skipped(afterName, 6);
      if |r| < 4 then None else Some((name, U32(r), Skipped(r[4..], 8)))
  }

  function DecodeColumns(s: seq<byte>, cols: nat): Option<(seq<Text>, seq<nat>)>
    decreases cols
  {
    if cols == 0 then Some(([], []))
    else
      match DecodeColumn(s)
      case None => None
      case Some((name, oid, rest)) =>
        match DecodeColumns(rest, cols - 1)
        case None => None
        case Some((names, oids)) => Some(([name] + names, [oid] + oids))
  }

  function DecodeRowDescription(s: seq<byte>): Option<Message> {
    if |s| < 2 then None
    else
      match DecodeColumns(s[2..], U16(s))
      case None => None
      case Some((names, oids)) => Some(RowDescription(names, oids))
  }

  /** The columns decoded so far, in front of what the rest decodes to. */
  function PrependColumns(names: seq<Text>, oids: seq<nat>, r: Option<(seq<Text>, seq<nat>)>): Option<(seq<Text>, seq<nat>)> {
    match r
    case None => None
    case Some((ns, os)) => Some((names + ns, oids + os))
  }

  lemma PrependNoColumns(r: Option<(seq<Text>, seq<nat>)>)
    ensures PrependColumns([], [], r) == r
  {
    if r.Some? {
      assert [] + r.value.0 == r.value.0 && [] + r.value.1 == r.value.1;
    }
  }

  /** One loop turn of readRowDescription moves one column from the input to the output. */
  lemma ColumnsStep(names: seq<Text>, oids: seq<nat>, s: seq<byte>, cols: nat)
    requires cols > 0 && DecodeColumn(s).Some?
    ensures var (name, oid, rest) := DecodeColumn(s).value;
      PrependColumns(names, oids, DecodeColumns(s, cols))
      == PrependColumns(names + [name], oids + [oid], DecodeColumns(rest, cols - 1))
  {
    var (name, oid, rest) := DecodeColumn(s).value;
    var r := DecodeColumns(rest, cols - 1);
    if r.Some? {
      AppendAssoc(names, [name], r.value.0);
      AppendAssoc(oids, [oid], r.value.1);
    }
  }

  method ReadColumn(msg: Buffer) returns (c: Option<(Text, nat)>)
    requires msg.Valid()
    modifies msg`pos
    ensures msg.Valid()
    ensures match DecodeColumn(old(msg.Remaining()))
            case None => c == None
            case Some((name, oid, rest)) => c == Some((name, oid)) && msg.Remaining() == rest
  {
    var name := msg.ReadString();
    if name.None? {
      return None;
    }
    Skip(msg, 6);
    if msg.Available() < 4 {
      return None;
    }
    var oid := msg.ReadUint32();
    Skip(msg, 8);
    return Some((name.value, oid));
  }

  method ReadColumns(msg: Buffer, cols: nat) returns (r: Option<(seq<Text>, seq<nat>)>)
    requires msg.Valid()
    modifies msg`pos
    ensures msg.Valid() && r == DecodeColumns(old(msg.Remaining()), cols)
  {
    ghost var start := msg.Remaining();
    var names: seq<Text>, oids: seq<nat> := [], [];
    PrependNoColumns(DecodeColumns(start, cols));
    for i := 0 to cols
      invariant msg.Valid()
      invariant PrependColumns(names, oids, DecodeColumns(msg.Remaining(), cols - i)) == DecodeColumns(start, cols)
    {
      ghost var rem := msg.Remaining();
      var c := ReadColumn(msg);
      if c.None? {
        return None;
      }
      ColumnsStep(names, oids, rem, cols - i);
      names, oids := names + [c.value.0], oids + [c.value.1];
    }
    assert names + [] == names && oids + [] == oids;
    return Some((names, oids));
  }

  method ReadRowDescription(msg: Buffer) returns (r: Option<Message>)
    requires msg.Valid()
    modifies msg`pos
    ensures msg.Valid() && r == DecodeRowDescription(old(msg.Remaining()))
  {
    if msg.Available() < 2 {
      return None;
    }
    var cols := msg.ReadUint16();
    var columns := ReadColumns(msg, cols);
    if columns.None? {
      return None;
    }
    return Some(RowDescription(columns.value.0, columns.value.1));
  }

  /** A column description as PostgreSQL lays it out. */
  datatype FieldDescription = FieldDescription(
    name: Text, table: nat, column: nat, oid: nat, typeSize: int, typeModifier: int, format: nat)

  function FieldBytes(f: FieldDescription): seq<byte> {
    CString(f.name) + BE32(f.table) + BE16(f.column) + BE32(f.oid)
      + BE16(f.typeSize) + BE32(f.typeModifier) + BE16(f.format)
  }

  function FieldsBytes(fs: seq<FieldDescription>): seq<byte> {
    if fs == [] then [] else FieldBytes(fs[0]) + FieldsBytes(fs[1..])
  }

  function Names(fs: seq<FieldDescription>): (r: seq<Text>)
    ensures |r| == |fs| && forall i | 0 <= i < |fs| :: r[i] == fs[i].name
  {
    if fs == [] then [] else [fs[0].name] + Names(fs[1..])
  }

  function Oids(fs: seq<FieldDescription>): (r: seq<nat>)
    ensures |r| == |fs| && forall i | 0 <= i < |fs| :: r[i] == fs[i].oid
  {
    if fs == [] then [] else [fs[0].oid] + Oids(fs[1..])
  }

  predicate WellFormedField(f: FieldDescription) {
    NoNul(f.name) && f.oid < 0x1_0000_0000
  }

  /** One column description decodes to its name and type OID, and the decoder stops right after it. */
  lemma DecodeField(f: FieldDescription, rest: seq<byte>)
    requires WellFormedField(f)
    ensures DecodeColumn(FieldBytes(f) + rest) == Some((f.name, f.oid, rest))
  {
    var after := BE16(f.typeSize) + BE32(f.typeModifier) + BE16(f.format) + rest;
    var tail := BE32(f.table) + BE16(f.column) + (BE32(f.oid) + after);
    assert FieldBytes(f) + rest == CString(f.name) + tail;
    SplitCStringOfCString(f.name, tail);
    var r := Skipped(tail, 6);
    assert r == BE32(f.oid) + after;
    U32Prefix(BE32(f.oid), after);
    U32OfBE32(f.oid);
    Mod32Small(f.oid);
    assert r[4..] == after;
    assert Skipped(after, 8) == rest;
  }

  lemma {:induction false} DecodeFields(fs: seq<FieldDescription>, rest: seq<byte>)
    requires forall i | 0 <= i < |fs| :: WellFormedField(fs[i])
    ensures DecodeColumns(FieldsBytes(fs) + rest, |fs|) == Some((Names(fs), Oids(fs)))
    decreases |fs|
  {
    if fs != [] {
      AppendAssoc(FieldBytes(fs[0]), FieldsBytes(fs[1..]), rest);
      DecodeField(fs[0], FieldsBytes(fs[1..]) + rest);
      DecodeFields(fs[1..], rest);
    }
  }

  /** A RowDescription as the server sends it decodes to the column names and type OIDs, in order. */
  lemma RowDescriptionRoundTrip(fs: seq<FieldDescription>)
    requires |fs| < 0x1_0000
    requires forall i | 0 <= i < |fs| :: WellFormedField(fs[i])
    ensures DecodeRowDescription(BE16(|fs|) + FieldsBytes(fs)) == Some(RowDescription(Names(fs), Oids(fs)))
  {
    CountPrefix(|fs|, FieldsBytes(fs));
    DecodeFields(fs, []);
    assert FieldsBytes(fs) + [] == FieldsBytes(fs);
  }

  // ------------------------------------------------------------ DataRow

  /**
   * One column value: an int32 length and that many bytes, or the length -1
   * and no bytes for NULL. A length running past the end yields the bytes
   * that are there (slicing stops at the end).
   */
  function DecodeValue(s: seq<byte>): Option<(Option<seq<byte>>, seq<byte>)> {
    if |s| < 4 then None
    else
      var n := I32(s);
      if n < -1 then None
      else if n == -1 then Some((None, s[4..]))
      else
        var k := Min(n, |s| - 4);
        Some((Some(s[4..][..k]), s[4..][k..]))
  }

  function DecodeValues(s: seq<byte>, cols: nat): Option<seq<Option<seq<byte>>>>
    decreases cols
  {
    if cols == 0 then Some([])
    else
      match DecodeValue(s)
      case None => None
      case Some((v, rest)) =>
        match DecodeValues(rest, cols - 1)
        case None => None
        case Some(vs) => Some([v] + vs)
  }

  function DecodeDataRow(s: seq<byte>): Option<Message> {
    if |s| < 2 then None
    else
      match DecodeValues(s[2..], U16(s))
      case None => None
      case Some(vs) => Some(DataRow(vs))
  }

  function PrependValues(values: seq<Option<seq<byte>>>, r: Option<seq<Option<seq<byte>>>>): Option<seq<Option<seq<byte>>>> {
    match r
    case None => None
    case Some(vs) => Some(values + vs)
  }

  lemma PrependNoValues(r: Option<seq<Option<seq<byte>>>>)
    ensures PrependValues([], r) == r
  {
    if r.Some? {
      assert [] + r.value == r.value;
    }
  }

  /** One loop turn of readDataRow moves one value from the input to the output. */
  lemma ValuesStep(values: seq<Option<seq<byte>>>, s: seq<byte>, cols: nat)
    requires cols > 0 && DecodeValue(s).Some?
    ensures var (v, rest) := DecodeValue(s).value;
      PrependValues(values, DecodeValues(s, cols)) == PrependValues(values + [v], DecodeValues(rest, cols - 1))
  {
    var (v, rest) := DecodeValue(s).value;
    var r := DecodeValues(rest, cols - 1);
    if r.Some? {
      AppendAssoc(values, [v], r.value);
    }
  }

  method ReadValue(msg: Buffer) returns (c: Option<Option<seq<byte>>>)
    requires msg.Valid()
    modifies msg`pos
    ensures msg.Valid()
    ensures match DecodeValue(old(msg.Remaining()))
            case None => c == None
            case Some((v, rest)) => c == Some(v) && msg.Remaining() == rest
  {
    if msg.Available() < 4 {
      return None;
    }
    var len := msg.ReadInt32();
    if len < -1 {
      return None;
    }
    if len == -1 {
      return Some(None);
    }
    ghost var r := msg.Remaining();
    var data := msg.ReadBuf(len);
    assert data == r[..Min(len, |r|)];
    assert msg.Remaining() == r[Min(len, |r|)..];
    return Some(Some(data));
  }

  method ReadValues(msg: Buffer, cols: nat) returns (r: Option<seq<Option<seq<byte>>>>)
    requires msg.Valid()
    modifies msg`pos
    ensures msg.Valid() && r == DecodeValues(old(msg.Remaining()), cols)
  {
    ghost var start := msg.Remaining();
    var values: seq<Option<seq<byte>>> := [];
    PrependNoValues(DecodeValues(start, cols));
    for i := 0 to cols
      invariant msg.Valid()
      invariant PrependValues(values, DecodeValues(msg.Remaining(), cols - i)) == DecodeValues(start, cols)
    {
      ghost var rem := msg.Remaining();
      var v := ReadValue(msg);
      if v.None? {
        return None;
      }
      ValuesStep(values, rem, cols - i);
      values := values + [v.value];
    }
    assert values + [] == values;
    return Some(values);
  }

  method ReadDataRow(msg: Buffer) returns (r: Option<Message>)
    requires msg.Valid()
    modifies msg`pos
    ensures msg.Valid() && r == DecodeDataRow(old(msg.Remaining()))
  {
    if msg.Available() < 2 {
      return None;
    }
    var cols := msg.ReadUint16();
    var values := ReadValues(msg, cols);
    if values.None? {
      return None;
    }
    return Some(DataRow(values.value));
  }

  /** A value short enough for its length to be a positive int32. */
  predicate Sendable(p: Option<Text>) {
    p.Some? ==> |p.value| < 0x8000_0000
  }

  /** One Bind parameter read back as a DataRow value is the parameter, NULL included. */
  lemma ValueRoundTrip(p: Option<Text>, rest: seq<byte>)
    requires Sendable(p)
    ensures DecodeValue(Encoders.Param(p) + rest) == Some((p, rest))
  {
    var s := Encoders.Param(p) + rest;
    match p
    case None =>
      U32Prefix(BE32(-1), rest);
      I32OfBE32(-1);
      assert s[4..] == rest;
    case Some(b) =>
      assert s == BE32(|b|) + (b + rest);
      U32Prefix(BE32(|b|), b + rest);
      I32OfBE32(|b|);
      assert s[4..] == b + rest;
      assert (b + rest)[..|b|] == b && (b + rest)[|b|..] == rest;
  }

  /** The Bind parameter layout read back as DataRow values gives the parameters, NULLs included. */
  lemma {:induction false} ValuesRoundTrip(ps: seq<Option<Text>>, rest: seq<byte>)
    requires forall i | 0 <= i < |ps| :: Sendable(ps[i])
    ensures DecodeValues(Encoders.Params(ps) + rest, |ps|) == Some(ps)
    decreases |ps|
  {
    if ps != [] {
      var tail := Encoders.Params(ps[1..]) + rest;
      assert Encoders.Params(ps) + rest == Encoders.Param(ps[0]) + tail by {
        AppendAssoc(Encoders.Param(ps[0]), Encoders.Params(ps[1..]), rest);
      }
      ValueRoundTrip(ps[0], tail);
      ValuesRoundTrip(ps[1..], rest);
      ValuesCons(Encoders.Params(ps) + rest, ps[0], tail, |ps|, ps[1..]);
      assert [ps[0]] + ps[1..] == ps;
    }
  }

  /** A value followed by values decodes as their list. */
  lemma ValuesCons(s: seq<byte>, v: Option<seq<byte>>, rest: seq<byte>, cols: nat, vs: seq<Option<seq<byte>>>)
    requires cols > 0 && DecodeValue(s) == Some((v, rest)) && DecodeValues(rest, cols - 1) == Some(vs)
    ensures DecodeValues(s, cols) == Some([v] + vs)
  {
  }

  /** A DataRow carrying the Bind layout of some values decodes back to those values. */
  lemma DataRowRoundTrip(ps: seq<Option<Text>>)
    requires |ps| < 0x1_0000
    requires forall i | 0 <= i < |ps| :: Sendable(ps[i])
    ensures DecodeDataRow(BE16(|ps|) + Encoders.Params(ps)) == Some(DataRow(ps))
  {
    CountPrefix(|ps|, Encoders.Params(ps));
    ValuesRoundTrip(ps, []);
    assert Encoders.Params(ps) + [] == Encoders.Params(ps);
  }

  /** A Bind body read the way a DataRow is read: no format codes, the value count, then the values themselves. */
  lemma BindRoundTrip(ps: seq<Option<Text>>)
    requires |ps| < 0x1_0000
    requires forall i | 0 <= i < |ps| :: Sendable(ps[i])
    ensures var b := Encoders.BindBody(ps);
      |b| >= 6 && U16(b[2..]) == 0 && U16(b[4..]) == |ps| && DecodeValues(b[6..], |ps|) == Some(ps)
  {
    var b := Encoders.BindBody(ps);
    var tail := Encoders.Params(ps) + BE16(0);
    assert b == [0, 0] + BE16(0) + (BE16(|ps|) + tail);
    assert b[2..] == BE16(0) + (BE16(|ps|) + tail);
    assert b[4..] == BE16(|ps|) + tail;
    CountPrefix(0, BE16(|ps|) + tail);
    CountPrefix(|ps|, tail);
    ValuesRoundTrip(ps, BE16(0));
  }

  // ------------------------------------------------------------ CommandComplete

  function DecodeCommandComplete(s: seq<byte>): Option<Message> {
    match SplitCString(s)
    case None => None
    case Some((tag, _)) => Some(CommandComplete(tag))
  }

  method ReadCommandComplete(msg: Buffer) returns (r: Option<Message>)
    requires msg.Valid()
    modifies msg`pos
    ensures msg.Valid() && r == DecodeCommandComplete(old(msg.Remaining()))
  {
    var tag := msg.ReadString();
    if tag.None? {
      return None;
    }
    return Some(CommandComplete(tag.value));
  }

  lemma CommandCompleteRoundTrip(tag: Text, rest: seq<byte>)
    requires NoNul(tag)
    ensures DecodeCommandComplete(CString(tag) + rest) == Some(CommandComplete(tag))
  {
    SplitCStringOfCString(tag, rest);
  }

  // ------------------------------------------------------------ ErrorResponse

  /** Keeps the value of the four known field codes; every other field is read and dropped. */
  function SetField(err: ErrorFields, field: byte, value: Text): (r: ErrorFields)
    ensures r.severity == if field == 86 then Some(value) else err.severity
    ensures r.code == if field == 67 then Some(value) else err.code
    ensures r.message == if field == 77 then Some(value) else err.message
    ensures r.detail == if field == 68 then Some(value) else err.detail
  {
    if field == 86 then err.(severity := Some(value))
    else if field == 67 then err.(code := Some(value))
    else if field == 77 then err.(message := Some(value))
    else if field == 68 then err.(detail := Some(value))
    else err
  }

  /** The fields from a field-code byte on: a 0 code ends the list; any other is followed by a string. */
  function DecodeErrorFields(s: seq<byte>, err: ErrorFields): Option<ErrorFields>
    decreases |s|, 1
  {
    if |s| == 0 then None else FieldsFrom(s[0], s[1..], err)
  }

  function FieldsFrom(field: byte, s: seq<byte>, err: ErrorFields): Option<ErrorFields>
    decreases |s|, 0
  {
    if field == 0 then Some(err)
    else
      match SplitCString(s)
      case None => None
      case Some((value, rest)) => DecodeErrorFields(rest, SetField(err, field, value))
  }

  function DecodeErrorResponse(s: seq<byte>): Option<Message> {
    match DecodeErrorFields(s, NoFields)
    case None => None
    case Some(err) => Some(ErrorResponse(err))
  }

  method ReadErrorResponse(msg: Buffer) returns (r: Option<Message>)
    requires msg.Valid()
    modifies msg`pos
    ensures msg.Valid() && r == DecodeErrorResponse(old(msg.Remaining()))
  {
    if msg.Available() < 1 {
      return None;
    }
    ghost var start := msg.Remaining();
    var err := NoFields;
    var field := msg.ReadUint8();
    while field != 0
      invariant msg.Valid()
      invariant FieldsFrom(field, msg.Remaining(), err) == DecodeErrorFields(start, NoFields)
      decreases msg.Available()
    {
      var value := msg.ReadString();
      if value.None? {
        return None;
      }
      err := SetField(err, field, value.value);
      if msg.Available() < 1 {
        return None;
      }
      field := msg.ReadUint8();
    }
    return Some(ErrorResponse(err));
  }

  /** An error field as the server sends it: a non-zero code and a string. */
  predicate WellFormedFields(fs: seq<(byte, Text)>) {
    forall i | 0 <= i < |fs| :: fs[i].0 != 0 && NoNul(fs[i].1)
  }

  function ErrorBody(fs: seq<(byte, Text)>): seq<byte> {
    if fs == [] then [0] else [fs[0].0] + CString(fs[0].1) + ErrorBody(fs[1..])
  }

  /** The fields applied in order. */
  function ApplyFields(err: ErrorFields, fs: seq<(byte, Text)>): ErrorFields
    decreases |fs|
  {
    if fs == [] then err else ApplyFields(SetField(err, fs[0].0, fs[0].1), fs[1..])
  }

  /** An ErrorResponse body decodes to its fields applied in order, whatever follows the terminator. */
  lemma {:induction false} ErrorFieldsRoundTrip(fs: seq<(byte, Text)>, err: ErrorFields, rest: seq<byte>)
    requires WellFormedFields(fs)
    ensures DecodeErrorFields(ErrorBody(fs) + rest, err) == Some(ApplyFields(err, fs))
    decreases |fs|
  {
    var s := ErrorBody(fs) + rest;
    if fs != [] {
      var (f, v) := fs[0];
      var more := ErrorBody(fs[1..]) + rest;
      assert s == [f] + (CString(v) + more);
      assert s[1..] == CString(v) + more;
      SplitCStringOfCString(v, more);
      assert WellFormedFields(fs[1..]) by {
        forall i | 0 <= i < |fs[1..]| ensures fs[1..][i].0 != 0 && NoNul(fs[1..][i].1) {
          assert fs[1..][i] == fs[i + 1];
        }
      }
      ErrorFieldsRoundTrip(fs[1..], SetField(err, f, v), rest);
    }
  }

  /** Applying one more field is setting it on the result: a later field overrides an earlier one. */
  lemma {:induction false} ApplyFieldsSnoc(err: ErrorFields, fs: seq<(byte, Text)>, f: byte, v: Text)
    ensures ApplyFields(err, fs + [(f, v)]) == SetField(ApplyFields(err, fs), f, v)
    decreases |fs|
  {
    if fs == [] {
      assert fs + [(f, v)] == [(f, v)];
    } else {
      assert (fs + [(f, v)])[1..] == fs[1..] + [(f, v)];
      ApplyFieldsSnoc(SetField(err, fs[0].0, fs[0].1), fs[1..], f, v);
    }
  }

  /** The message the client reports is the last M field the server sent. */
  lemma LastMessageWins(fs: seq<(byte, Text)>, m: Text, later: seq<(byte, Text)>)
    requires forall i | 0 <= i < |later| :: later[i].0 != 77
    ensures ApplyFields(NoFields, fs + [(77, m)] + later).message == Some(m)
  {
    LaterFieldsKeepMessage(ApplyFields(NoFields, fs + [(77, m)]), later);
    ApplyFieldsSnoc(NoFields, fs, 77, m);
    ApplyFieldsAppend(NoFields, fs + [(77, m)], later);
  }

  lemma {:induction false} LaterFieldsKeepMessage(err: ErrorFields, later: seq<(byte, Text)>)
    requires forall i | 0 <= i < |later| :: later[i].0 != 77
    ensures ApplyFields(err, later).message == err.message
    decreases |later|
  {
    if later != [] {
      LaterFieldsKeepMessage(SetField(err, later[0].0, later[0].1), later[1..]);
    }
  }

  lemma {:induction false} ApplyFieldsAppend(err: ErrorFields, a: seq<(byte, Text)>, b: seq<(byte, Text)>)
    ensures ApplyFields(err, a + b) == ApplyFields(ApplyFields(err, a), b)
    decreases |a|
  {
    if a == [] {
      assert a + b == b;
    } else {
      assert (a + b)[1..] == a[1..] + b;
      ApplyFieldsAppend(SetField(err, a[0].0, a[0].1), a[1..], b);
    }
  }
}

=== FILE: dispatch.dfy ===
/**
 * `protocol.recv` (pegsocket.js:251-267): every framed message is decoded
 * by its tag and collected until ReadyForQuery ('Z') hands the collected
 * messages over as one batch. An Authentication that is not ok is handed
 * over at once, as a batch of its own; other tags are ignored.
 */
module Dispatch {
  import opened Wrappers
  import opened Bytes
  import opened ByteBuffer
  import opened Framer
  import opened Decoders

  const ErrorTag: byte := 69           // 'E'
  const RowDescriptionTag: byte := 84  // 'T'
  const DataRowTag: byte := 68         // 'D'
  const CommandCompleteTag: byte := 67 // 'C'
  const ReadyTag: byte := 90           // 'Z'
  const AuthenticationTag: byte := 82  // 'R'

  /** The message a framed message decodes to; None for an ignored tag or a body that does not decode. */
  function Decoded(raw: RawMessage): (r: Option<Message>)
    ensures r.Some? ==> (r.value.ErrorResponse? <==> raw.tag == ErrorTag)
    ensures r.Some? ==> (r.value.RowDescription? <==> raw.tag == RowDescriptionTag)
    ensures r.Some? ==> (r.value.DataRow? <==> raw.tag == DataRowTag)
    ensures r.Some? ==> (r.value.CommandComplete? <==> raw.tag == CommandCompleteTag)
    ensures r.Some? ==> (r.value.Authentication? <==> raw.tag == AuthenticationTag)
  {
    if raw.tag == ErrorTag then DecodeErrorResponse(raw.data)
    else if raw.tag == RowDescriptionTag then DecodeRowDescription(raw.data)
    else if raw.tag == DataRowTag then DecodeDataRow(raw.data)
    else if raw.tag == CommandCompleteTag then DecodeCommandComplete(raw.data)
    else if raw.tag == AuthenticationTag then DecodeAuthentication(raw.data)
    else None
  }

  predicate AuthenticationFailed(m: Message) {
    m.Authentication? && !m.ok
  }

  /** The messages collected so far and the batches handed over so far. */
  datatype Delivery = Delivery(pending: seq<Message>, batches: seq<seq<Message>>)

  /** What one framed message does to the collected messages, and the batches it hands over. */
  function React(pending: seq<Message>, raw: RawMessage): (r: (seq<Message>, seq<seq<Message>>))
    ensures |r.1| <= 1 && (|r.1| == 1 <==> HandsOver(raw))
    ensures raw.tag == ReadyTag ==> r.0 == [] && r.1 == [pending]
    ensures raw.tag != ReadyTag && HandsOver(raw) ==> r.0 == pending && r.1 == [[Decoded(raw).value]]
    ensures !HandsOver(raw) ==> r.0 == pending + Kept([raw])
  {
    if raw.tag == ReadyTag then ([], [pending])
    else
      match Decoded(raw)
      case None => (pending, [])
      case Some(m) => if AuthenticationFailed(m) then (pending, [[m]]) else (pending + [m], [])
  }

  function Step(d: Delivery, raw: RawMessage): Delivery {
    var (pending, out) := React(d.pending, raw);
    Delivery(pending, d.batches + out)
  }

  /** The framed messages handled in order. */
  function Deliver(d: Delivery, ms: seq<RawMessage>): Delivery
    decreases |ms|
  {
    if ms == [] then d else Step(Deliver(d, ms[..|ms| - 1]), ms[|ms| - 1])
  }

  // ------------------------------------------------------------ the receiver

  method ReadMessage(raw: RawMessage) returns (m: Option<Message>)
    ensures m == Decoded(raw)
  {
    var b := new Buffer.Wrap(raw.data);
    if raw.tag == ErrorTag {
      m := ReadErrorResponse(b);
    } else if raw.tag == RowDescriptionTag {
      m := ReadRowDescription(b);
    } else if raw.tag == DataRowTag {
      m := ReadDataRow(b);
    } else if raw.tag == CommandCompleteTag {
      m := ReadCommandComplete(b);
    } else if raw.tag == AuthenticationTag {
      m := ReadAuthentication(b);
    } else {
      m := None;
    }
  }

  class Receiver {
    const framer: Defragmenter
    /** The decoded messages waiting for ReadyForQuery. */
    var msgs: seq<Message>

    ghost predicate Valid()
      reads this, framer, framer.backlog, framer.backlog.buf
    {
      framer.Valid()
    }

    constructor ()
      ensures Valid() && fresh(framer) && fresh(framer.backlog) && fresh(framer.backlog.buf)
      ensures msgs == [] && framer.Pending() == []
    {
      framer := new Defragmenter();
      msgs := [];
    }

    /** The onRecvMsg callback: one framed message, and the batches it hands over (none or one). */
    method Handle(raw: RawMessage) returns (delivered: seq<seq<Message>>)
      modifies this`msgs
      ensures (msgs, delivered) == React(old(msgs), raw)
    {
      if raw.tag == ReadyTag {
        delivered := [msgs];
        msgs := [];
        return;
      }
      var m := ReadMessage(raw);
      if m.None? {
        return [];
      }
      if m.value.Authentication? && !m.value.ok {
        return [[m.value]];
      }
      msgs := msgs + [m.value];
      return [];
    }

    /** The messages one chunk completes, handled in order, and the batches they hand over. */
    method HandleAll(raws: seq<RawMessage>) returns (batches: seq<seq<Message>>)
      modifies this`msgs
      ensures Delivery(msgs, batches) == Deliver(Delivery(old(msgs), []), raws)
    {
      ghost var d0 := Delivery(msgs, []);
      batches := [];
      for i := 0 to |raws|
        invariant Delivery(msgs, batches) == Deliver(d0, raws[..i])
      {
        var delivered := Handle(raws[i]);
        assert raws[..i + 1][..i] == raws[..i];
        batches := batches + delivered;
      }
      assert raws[..|raws|] == raws;
    }

    /** One transport chunk: the batches handed over while the messages it completes are handled. */
    method Push(chunk: seq<byte>) returns (batches: seq<seq<Message>>)
      requires Valid()
      modifies this`msgs, framer.backlog, framer.backlog.buf
      ensures Valid()
      ensures framer.Pending() == Split(old(framer.Pending()) + chunk).rest
      ensures Delivery(msgs, batches) == Deliver(Delivery(old(msgs), []), Split(old(framer.Pending()) + chunk).msgs)
    {
      var raws := framer.Push(chunk);
      batches := HandleAll(raws);
    }
  }

  // ------------------------------------------------------------ properties

  /** Handling two runs of messages one after the other is handling them together. */
  lemma {:induction false} DeliverAppend(d: Delivery, a: seq<RawMessage>, b: seq<RawMessage>)
    ensures Deliver(d, a + b) == Deliver(Deliver(d, a), b)
    decreases |b|
  {
    if b == [] {
      assert a + b == a;
    } else {
      var b' := b[..|b| - 1];
      assert (a + b)[..|a + b| - 1] == a + b';
      DeliverAppend(d, a, b');
    }
  }

  /** Batches once handed over stay handed over. */
  lemma {:induction false} BatchesOnlyGrow(d: Delivery, ms: seq<RawMessage>)
    ensures |Deliver(d, ms).batches| >= |d.batches|
    ensures Deliver(d, ms).batches[..|d.batches|] == d.batches
    decreases |ms|
  {
    if ms != [] {
      BatchesOnlyGrow(d, ms[..|ms| - 1]);
    }
  }

  /** Whether a framed message hands over a batch: ReadyForQuery, or an Authentication that is not ok. */
  predicate HandsOver(raw: RawMessage) {
    raw.tag == ReadyTag || (Decoded(raw).Some? && AuthenticationFailed(Decoded(raw).value))
  }

  function CountHandOvers(ms: seq<RawMessage>): nat
    decreases |ms|
  {
    if ms == [] then 0 else CountHandOvers(ms[..|ms| - 1]) + (if HandsOver(ms[|ms| - 1]) then 1 else 0)
  }

  /** One batch per ReadyForQuery and per failed Authentication, no more. */
  lemma {:induction false} BatchCount(d: Delivery, ms: seq<RawMessage>)
    ensures |Deliver(d, ms).batches| == |d.batches| + CountHandOvers(ms)
    decreases |ms|
  {
    if ms != [] {
      BatchCount(d, ms[..|ms| - 1]);
    }
  }

  /** The messages kept from a run: those that decode, in order. */
  function Kept(ms: seq<RawMessage>): seq<Message>
    decreases |ms|
  {
    if ms == [] then []
    else
      var last := ms[|ms| - 1];
      Kept(ms[..|ms| - 1]) + (if Decoded(last).Some? then [Decoded(last).value] else [])
  }

  predicate Quiet(raw: RawMessage) {
    !HandsOver(raw)
  }

  /** Without a hand-over, messages only collect: every decodable one, in order, and nothing is handed over. */
  lemma {:induction false} QuietDelivery(d: Delivery, ms: seq<RawMessage>)
    requires forall i | 0 <= i < |ms| :: Quiet(ms[i])
    ensures Deliver(d, ms) == Delivery(d.pending + Kept(ms), d.batches)
    decreases |ms|
  {
    if ms == [] {
      assert d.pending + [] == d.pending;
      assert d.batches + [] == d.batches;
    } else {
      var init := ms[..|ms| - 1];
      QuietDelivery(d, init);
      var last := ms[|ms| - 1];
      assert Quiet(last);
      assert d.batches + [] == d.batches;
      AppendAssoc(d.pending, Kept(init), if Decoded(last).Some? then [Decoded(last).value] else []);
    }
  }

  /** The responses to one request followed by ReadyForQuery arrive as exactly one batch, nothing lost. */
  lemma ReadyDeliversBatch(d: Delivery, ms: seq<RawMessage>, ready: RawMessage)
    requires forall i | 0 <= i < |ms| :: Quiet(ms[i])
    requires ready.tag == ReadyTag
    ensures Deliver(d, ms + [ready]) == Delivery([], d.batches + [d.pending + Kept(ms)])
  {
    DeliverAppend(d, ms, [ready]);
    QuietDelivery(d, ms);
    assert [ready][..0] == [];
  }

  /** Batches handed over during successive pushes of transport chunks. */
  function Receive(d: Delivery, pending: seq<byte>, chunks: seq<seq<byte>>): Delivery
    decreases |chunks|
  {
    if chunks == [] then d
    else
      var f := Split(pending + chunks[0]);
      Receive(Deliver(d, f.msgs), f.rest, chunks[1..])
  }

  /**
   * Delivery does not look at the batches already handed over: handing over
   * continues after them. So a Receive from batches B is B followed by what
   * successive Receiver.Push calls return, each starting with no batches.
   */
  lemma {:induction false} DeliverAfterBatches(pending: seq<Message>, handed: seq<seq<Message>>, ms: seq<RawMessage>)
    ensures Deliver(Delivery(pending, handed), ms).pending == Deliver(Delivery(pending, []), ms).pending
    ensures Deliver(Delivery(pending, handed), ms).batches == handed + Deliver(Delivery(pending, []), ms).batches
    decreases |ms|
  {
    if ms != [] {
      var init := ms[..|ms| - 1];
      DeliverAfterBatches(pending, handed, init);
      var d := Deliver(Delivery(pending, []), init);
      var out := React(d.pending, ms[|ms| - 1]).1;
      AppendAssoc(handed, d.batches, out);
    }
  }

  /** Receiving the chunks after a first one is pushing it, then receiving the rest from what Push leaves. */
  lemma ReceivePush(pending: seq<Message>, handed: seq<seq<Message>>, backlog: seq<byte>, chunks: seq<seq<byte>>)
    requires chunks != []
    ensures var f := Split(backlog + chunks[0]);
      var pushed := Deliver(Delivery(pending, []), f.msgs);
      Receive(Delivery(pending, handed), backlog, chunks)
        == Receive(Delivery(pushed.pending, handed + pushed.batches), f.rest, chunks[1..])
  {
    var f := Split(backlog + chunks[0]);
    DeliverAfterBatches(pending, handed, f.msgs);
  }

  lemma {:induction false} ReceiveIsDeliver(d: Delivery, pending: seq<byte>, chunks: seq<seq<byte>>)
    ensures Receive(d, pending, chunks) == Deliver(d, Feed(pending, chunks).msgs)
    decreases |chunks|
  {
    if chunks != [] {
      var f := Split(pending + chunks[0]);
      ReceiveIsDeliver(Deliver(d, f.msgs), f.rest, chunks[1..]);
      DeliverAppend(d, f.msgs, Feed(f.rest, chunks[1..]).msgs);
    }
  }

  /** What the receiver hands over does not depend on how the stream was cut into chunks. */
  lemma ReceiveChunkingInvariant(d: Delivery, chunks1: seq<seq<byte>>, chunks2: seq<seq<byte>>)
    requires Flatten(chunks1) == Flatten(chunks2)
    ensures Receive(d, [], chunks1) == Receive(d, [], chunks2)
  {
    ReceiveIsDeliver(d, [], chunks1);
    ReceiveIsDeliver(d, [], chunks2);
    ChunkingInvariant(chunks1, chunks2);
  }
}

=== FILE: encoders.dfy ===
/**
 * The frontend messages (`protocol.write*`, pegsocket.js:133-210). Each is
 * built by successive writes into a fresh buffer and finished by stamping
 * the length field; the contracts give the resulting wire layout, and the
 * lemmas read the fields back out of it.
 */
module Encoders {
  import opened Wrappers
  import opened Bytes
  import opened ByteBuffer
  import opened Framer

  const QueryTag: byte := 81     // 'Q'
  const ParseTag: byte := 80     // 'P'
  const BindTag: byte := 66      // 'B'
  const DescribeTag: byte := 68  // 'D'
  const ExecuteTag: byte := 69   // 'E'
  const CloseTag: byte := 67     // 'C'
  const SyncTag: byte := 83      // 'S'

  /** The 'S' byte Describe and Close use to name a prepared statement (as opposed to a portal). */
  const StatementKind: byte := 83

  /** Protocol version 3.0: major 3 in the high 16 bits, minor 0 in the low ones. */
  const ProtocolVersion: nat := 196608

  /**
   * The opening every tagged encoder shares: a fresh buffer with the given
   * capacity, the tag, and a zero placeholder for the length that toPacket
   * fills in at the end.
   */
  method StartMessage(tag: byte, sizeHint: nat) returns (msg: Buffer)
    requires sizeHint > 0
    ensures fresh(msg) && fresh(msg.buf) && msg.Valid() && msg.buf.Length > 0
    ensures msg.pos == 0 && msg.contents == [tag] + BE32(0)
  {
    msg := new Buffer(sizeHint);
    msg.WriteUint8(tag);
    msg.WriteUint32(0);
  }

  /** What follows the five header bytes is the body. */
  lemma BodyAfterHeader(header: seq<byte>, body: seq<byte>)
    requires |header| == 5
    ensures (header + body)[0] == header[0] && (header + body)[5..] == body
  {
  }

  // ------------------------------------------------------------ Startup

  /** The parameter pairs of the startup message, then the empty name that ends the list. */
  function StartupParams(database: Text, user: Text): (r: seq<Text>)
    ensures |r| == 7 && r[3] == database && r[5] == user && r[6] == []
    ensures r[0] == Ascii("client_encoding") && r[1] == Ascii("UTF-8")
    ensures r[2] == Ascii("database") && r[4] == Ascii("user")
  {
    [Ascii("client_encoding"), Ascii("UTF-8"), Ascii("database"), database, Ascii("user"), user, []]
  }

  /** The startup packet: untagged; its length field counts the whole packet. */
  function Startup(database: Text, user: Text): seq<byte> {
    var body := BE32(ProtocolVersion) + CStrings(StartupParams(database, user));
    BE32(|body| + 4) + body
  }

  lemma CStringsSnoc(ss: seq<Text>, i: nat)
    requires i < |ss|
    ensures CStrings(ss[..i + 1]) == CStrings(ss[..i]) + CString(ss[i])
  {
    CStringsAppend(ss[..i], [ss[i]]);
    assert ss[..i] + [ss[i]] == ss[..i + 1];
    assert CStrings([ss[i]]) == CString(ss[i]) + CStrings([]);
  }

  lemma {:induction false} CStringsAppend(a: seq<Text>, b: seq<Text>)
    ensures CStrings(a + b) == CStrings(a) + CStrings(b)
    decreases |a|
  {
    if a == [] {
      assert a + b == b;
    } else {
      assert (a + b)[1..] == a[1..] + b;
      CStringsAppend(a[1..], b);
      AppendAssoc(CString(a[0]), CStrings(a[1..]), CStrings(b));
    }
  }

  /** writeStartup: the version, each parameter string in turn, then the total length at offset 0. */
  method WriteStartup(database: Text, user: Text) returns (packet: seq<byte>)
    ensures packet == Startup(database, user)
  {
    var msg := new Buffer(47 + |database| + |user|);
    msg.WriteUint32(0);
    ghost var placeholder := msg.contents;
    msg.WriteUint32(ProtocolVersion);
    var params := StartupParams(database, user);
    ghost var header := msg.contents;
    for i := 0 to |params|
      invariant fresh(msg) && fresh(msg.buf) && msg.Valid() && msg.buf.Length > 0
      invariant msg.contents == header + CStrings(params[..i])
    {
      msg.WriteString(params[i]);
      CStringsSnoc(params, i);
      AppendAssoc(header, CStrings(params[..i]), CString(params[i]));
    }
    assert params[..|params|] == params;
    var t := msg.Trim();
    packet := BE32(|t|) + t[4..];
    AppendAssoc(placeholder, BE32(ProtocolVersion), CStrings(params));
    DropFour(placeholder, BE32(ProtocolVersion) + CStrings(params));
  }

  /** Four bytes in front of s: dropping them gives s back. */
  lemma DropFour(four: seq<byte>, s: seq<byte>)
    requires |four| == 4
    ensures (four + s)[4..] == s
  {
  }

  /**
   * The startup fields read back: the length field is the packet's size
   * (for packets under 4 GiB), the version is 3.0, and the rest is the seven
   * NUL-terminated strings, the database and the user among them, with nothing after.
   */
  lemma StartupFields(database: Text, user: Text)
    requires NoNul(database) && NoNul(user)
    ensures var p := Startup(database, user);
      && |p| >= 8
      && (|p| < 0x1_0000_0000 ==> U32(p) == |p|)
      && U32(p[4..]) == ProtocolVersion
      && SplitCStrings(p[8..], 7) == Some((StartupParams(database, user), []))
  {
    var params := StartupParams(database, user);
    var strings := CStrings(params);
    var body := BE32(ProtocolVersion) + strings;
    var p := Startup(database, user);
    U32OfBE32(|p|);
    U32Prefix(BE32(|body| + 4), body);
    if |p| < 0x1_0000_0000 {
      Mod32Small(|p|);
    }
    DropFour(BE32(|body| + 4), body);
    U32OfBE32(ProtocolVersion);
    Mod32Small(ProtocolVersion);
    U32Prefix(BE32(ProtocolVersion), strings);
    DropFour(BE32(ProtocolVersion), strings);
    assert p[4..][4..] == p[8..];
    StartupParamsNoNul(database, user);
    assert strings + [] == strings;
    SplitCStringsOfCStrings(params, []);
  }

  lemma StartupParamsNoNul(database: Text, user: Text)
    requires NoNul(database) && NoNul(user)
    ensures forall i | 0 <= i < 7 :: NoNul(StartupParams(database, user)[i])
  {
    var params := StartupParams(database, user);
    forall i | 0 <= i < 7 ensures NoNul(params[i]) {
      var s := params[i];
      forall k | 0 <= k < |s| ensures s[k] != 0 {
        if i == 3 || i == 5 {
          assert s[k] in s;
        }
      }
    }
  }

  // ------------------------------------------------------------ Simple query

  /** writeQuery: 'Q', then the SQL text NUL-terminated. */
  method WriteQuery(sql: Text) returns (packet: seq<byte>)
    ensures packet == Packet(QueryTag, CString(sql))
  {
    var msg := StartMessage(QueryTag, |sql| + 6);
    ghost var header := msg.contents;
    msg.WriteString(sql);
    BodyAfterHeader(header, CString(sql));
    packet := msg.ToPacket();
  }

  /** The backend's framer cuts a Query packet back out, and its body reads back as the SQL text. */
  lemma QueryRoundTrip(sql: Text, rest: seq<byte>)
    requires NoNul(sql) && |sql| + 5 < 0x1_0000_0000
    ensures Split(Packet(QueryTag, CString(sql)) + rest).msgs
            == [RawMessage(QueryTag, CString(sql))] + Split(rest).msgs
    ensures SplitCString(CString(sql)) == Some((sql, []))
  {
    SplitPacket(QueryTag, CString(sql), rest);
    assert CString(sql) == CString(sql) + [];
    SplitCStringOfCString(sql, []);
  }

  // ------------------------------------------------------------ Extended query

  /** n parameter type OIDs, each 0 (unspecified: the server infers the type). */
  function ZeroOids(n: nat): (r: seq<byte>)
    ensures |r| == 4 * n && forall k | 0 <= k < |r| :: r[k] == 0
  {
    if n == 0 then [] else ZeroOids(n - 1) + BE32(0)
  }

  /** Parse: unnamed statement, the SQL text, the parameter count (mod 2^16), and one zero OID per parameter. */
  function ParseBody(sql: Text, paramCount: nat): seq<byte> {
    [0] + CString(sql) + BE16(paramCount) + ZeroOids(paramCount)
  }

  method WriteParse(sql: Text, paramCount: nat) returns (packet: seq<byte>)
    ensures packet == Packet(ParseTag, ParseBody(sql, paramCount))
  {
    var msg := StartMessage(ParseTag, |sql| + 9 + 4 * paramCount);
    ghost var header := msg.contents;
    msg.WriteUint8(0);
    msg.WriteString(sql);
    msg.WriteUint16(paramCount);
    ghost var fixed := msg.contents;
    WriteZeroOids(msg, paramCount);
    ParseLayout(header, fixed, msg.contents, sql, paramCount);
    BodyAfterHeader(header, ParseBody(sql, paramCount));
    packet := msg.ToPacket();
  }

  lemma ParseLayout(header: seq<byte>, fixed: seq<byte>, c: seq<byte>, sql: Text, n: nat)
    requires fixed == header + [0] + CString(sql) + BE16(n)
    requires c == fixed + ZeroOids(n)
    ensures c == header + ParseBody(sql, n)
  {
  }

  /** writeParse's loop: one zero type OID per parameter. */
  method WriteZeroOids(msg: Buffer, n: nat)
    requires msg.Valid() && msg.buf.Length > 0
    modifies msg, msg.buf
    ensures msg.Valid() && msg.buf.Length > 0
    ensures msg.buf == old(msg.buf) || fresh(msg.buf)
    ensures msg.contents == old(msg.contents) + ZeroOids(n)
  {
    ghost var fixed := msg.contents;
    for i := 0 to n
      invariant msg.Valid() && msg.buf.Length > 0
      invariant msg.buf == old(msg.buf) || fresh(msg.buf)
      invariant msg.contents == fixed + ZeroOids(i)
    {
      msg.WriteUint32(0);
      AppendAssoc(fixed, ZeroOids(i), BE32(0));
    }
  }

  /** A Parse body reads back as the unnamed statement, the SQL text, the parameter count and that many zero OIDs. */
  lemma ParseFields(sql: Text, paramCount: nat)
    requires NoNul(sql) && paramCount < 0x1_0000
    ensures var b := ParseBody(sql, paramCount);
      && b[0] == 0
      && SplitCString(b[1..]) == Some((sql, BE16(paramCount) + ZeroOids(paramCount)))
      && U16(BE16(paramCount) + ZeroOids(paramCount)) == paramCount
  {
    var after := BE16(paramCount) + ZeroOids(paramCount);
    assert ParseBody(sql, paramCount)[1..] == CString(sql) + after;
    SplitCStringOfCString(sql, after);
    CountPrefix(paramCount, ZeroOids(paramCount));
  }

  /** One Bind parameter: NULL is the length -1 and no bytes, any other value its length then its bytes. */
  function Param(p: Option<Text>): seq<byte> {
    match p
    case None => BE32(-1)
    case Some(b) => BE32(|b|) + b
  }

  function Params(ps: seq<Option<Text>>): seq<byte> {
    if ps == [] then [] else Param(ps[0]) + Params(ps[1..])
  }

  lemma {:induction false} ParamsAppend(a: seq<Option<Text>>, b: seq<Option<Text>>)
    ensures Params(a + b) == Params(a) + Params(b)
    decreases |a|
  {
    if a == [] {
      assert a + b == b;
    } else {
      assert (a + b)[1..] == a[1..] + b;
      ParamsAppend(a[1..], b);
      AppendAssoc(Param(a[0]), Params(a[1..]), Params(b));
    }
  }

  /**
   * Bind: unnamed portal, unnamed statement, no parameter format codes (all
   * text), the parameter count (mod 2^16), the parameters, no result format codes.
   */
  function BindBody(ps: seq<Option<Text>>): seq<byte> {
    [0, 0] + BE16(0) + BE16(|ps|) + Params(ps) + BE16(0)
  }

  method WriteBind(ps: seq<Option<Text>>) returns (packet: seq<byte>)
    ensures packet == Packet(BindTag, BindBody(ps))
  {
    var msg := StartMessage(BindTag, 64);
    ghost var header := msg.contents;
    msg.WriteUint8(0);
    msg.WriteUint8(0);
    msg.WriteUint16(0);
    ghost var flags := msg.contents;
    msg.WriteUint16(|ps|);
    ghost var fixed := msg.contents;
    WriteParams(msg, ps);
    msg.WriteUint16(0);
    BindLayout(header, flags, fixed, msg.contents, |ps|, Params(ps));
    BodyAfterHeader(header, BindBody(ps));
    packet := msg.ToPacket();
  }

  lemma BindLayout(header: seq<byte>, flags: seq<byte>, fixed: seq<byte>, c: seq<byte>, n: nat, params: seq<byte>)
    requires flags == header + [0] + [0] + BE16(0)
    requires fixed == flags + BE16(n)
    requires c == fixed + params + BE16(0)
    ensures c == header + ([0, 0] + BE16(0) + BE16(n) + params + BE16(0))
  {
  }

  /** writeBind's forEach: the parameters in order. */
  method WriteParams(msg: Buffer, ps: seq<Option<Text>>)
    requires msg.Valid() && msg.buf.Length > 0
    modifies msg, msg.buf
    ensures msg.Valid() && msg.buf.Length > 0
    ensures msg.buf == old(msg.buf) || fresh(msg.buf)
    ensures msg.contents == old(msg.contents) + Params(ps)
  {
    ghost var fixed := msg.contents;
    for i := 0 to |ps|
      invariant msg.Valid() && msg.buf.Length > 0
      invariant msg.buf == old(msg.buf) || fresh(msg.buf)
      invariant msg.contents == fixed + Params(ps[..i])
    {
      WriteParam(msg, ps[i]);
      assert ps[..i + 1] == ps[..i] + [ps[i]];
      ParamsAppend(ps[..i], [ps[i]]);
      assert Params([ps[i]]) == Param(ps[i]) + [];
      AppendAssoc(fixed, Params(ps[..i]), Param(ps[i]));
    }
    assert ps[..|ps|] == ps;
  }

  /** The body of writeBind's forEach: one parameter's length and bytes. */
  method WriteParam(msg: Buffer, p: Option<Text>)
    requires msg.Valid() && msg.buf.Length > 0
    modifies msg, msg.buf
    ensures msg.Valid() && msg.buf.Length > 0
    ensures msg.buf == old(msg.buf) || fresh(msg.buf)
    ensures msg.contents == old(msg.contents) + Param(p)
  {
    ghost var before := msg.contents;
    match p
    case None =>
      msg.WriteInt32(-1);
    case Some(bytes) =>
      msg.WriteInt32(|bytes|);
      msg.WriteBuf(bytes);
      AppendAssoc(before, BE32(|bytes|), bytes);
  }

  /** Describe the unnamed prepared statement. */
  method WriteDescribe() returns (packet: seq<byte>)
    ensures packet == Packet(DescribeTag, [StatementKind, 0])
  {
    var msg := StartMessage(DescribeTag, 7);
    ghost var header := msg.contents;
    msg.WriteUint8(StatementKind);
    msg.WriteUint8(0);
    assert msg.contents == header + [StatementKind, 0];
    BodyAfterHeader(header, [StatementKind, 0]);
    packet := msg.ToPacket();
  }

  /** Execute the unnamed portal with no row limit (0). */
  method WriteExecute() returns (packet: seq<byte>)
    ensures packet == Packet(ExecuteTag, [0] + BE32(0))
  {
    var msg := StartMessage(ExecuteTag, 10);
    ghost var header := msg.contents;
    msg.WriteUint8(0);
    msg.WriteUint32(0);
    assert msg.contents == header + ([0] + BE32(0));
    BodyAfterHeader(header, [0] + BE32(0));
    packet := msg.ToPacket();
  }

  /** Close the unnamed prepared statement. */
  method WriteClose() returns (packet: seq<byte>)
    ensures packet == Packet(CloseTag, [StatementKind, 0])
  {
    var msg := StartMessage(CloseTag, 7);
    ghost var header := msg.contents;
    msg.WriteUint8(StatementKind);
    msg.WriteUint8(0);
    assert msg.contents == header + [StatementKind, 0];
    BodyAfterHeader(header, [StatementKind, 0]);
    packet := msg.ToPacket();
  }

  method WriteSync() returns (packet: seq<byte>)
    ensures packet == Packet(SyncTag, [])
  {
    var msg := StartMessage(SyncTag, 5);
    ghost var header := msg.contents;
    BodyAfterHeader(header, []);
    assert msg.contents == header + [];
    packet := msg.ToPacket();
  }
}

=== FILE: framer.dfy ===
/**
 * The stream framer (`defragment`, pegsocket.js:116-132). Transport chunks
 * are appended to a backlog, and every complete message (a one-byte tag, a
 * big-endian u32 length that counts itself but not the tag, then the
 * payload) is cut off the front of the backlog in stream order.
 */
module Framer {
  import opened Wrappers
  import opened Bytes
  import opened ByteBuffer

  /** A message as the framer hands it on: the type tag and the payload bytes. */
  datatype RawMessage = RawMessage(tag: byte, data: seq<byte>)

  /** What one framing pass yields: the complete messages in order, and the bytes kept for later. */
  datatype Framed = Framed(msgs: seq<RawMessage>, rest: seq<byte>)

  /** The capacity the backlog is created with and compacted back to. */
  const BacklogSizeHint: nat := 4096

  /** The length field of a message that starts at the front of s. */
  function Declared(s: seq<byte>): nat
    requires |s| >= 5
  {
    U32(s[1..])
  }

  /**
   * s starts with a complete message: the 5-byte header is there and so is
   * all of the payload it announces. A payload of size 0 is complete as
   * soon as the header is.
   */
  predicate HasFrame(s: seq<byte>) {
    |s| >= 5 && 1 + Declared(s) <= |s|
  }

  /** The message at the front of s (HasFrame(s)). */
  function Head(s: seq<byte>): RawMessage
    requires HasFrame(s)
  {
    var declared := Declared(s);
    RawMessage(s[0], if declared >= 4 then s[5..1 + declared] else [])
  }

  /** The bytes after the message at the front of s. */
  function Next(s: seq<byte>): seq<byte>
    requires HasFrame(s)
  {
    s[1 + Declared(s)..]
  }

  /**
   * The framing of a backlog, message by message. The next message starts
   * 1 + declared bytes further on; its payload is the declared - 4 bytes
   * after the header. A declared length below 4 makes the payload empty
   * (slicing to an end before the start) and still moves on by
   * 1 + declared bytes, as the cursor arithmetic does.
   */
  function Split(s: seq<byte>): (r: Framed)
    ensures r.msgs == [] <==> !HasFrame(s)
    ensures !HasFrame(r.rest)
    decreases |s|
  {
    if !HasFrame(s) then Framed([], s)
    else
      var next := Split(Next(s));
      Framed([Head(s)] + next.msgs, next.rest)
  }

  /** Bytes appended behind a complete message change neither it nor where the next one starts. */
  lemma AppendKeepsFrame(a: seq<byte>, b: seq<byte>)
    requires HasFrame(a)
    ensures HasFrame(a + b) && Head(a + b) == Head(a) && Next(a + b) == Next(a) + b
  {
    var e := 1 + Declared(a);
    assert (a + b)[1..][..4] == a[1..][..4];
    assert Declared(a + b) == Declared(a);
    assert (a + b)[e..] == a[e..] + b;
    if Declared(a) >= 4 {
      assert (a + b)[5..e] == a[5..e];
    }
  }

  /**
   * Framing is compositional: framing a + b gives the messages of a, then
   * the messages of what a left over followed by b.
   */
  lemma {:induction false} SplitAppend(a: seq<byte>, b: seq<byte>)
    ensures Split(a + b).msgs == Split(a).msgs + Split(Split(a).rest + b).msgs
    ensures Split(a + b).rest == Split(Split(a).rest + b).rest
    decreases |a|
  {
    if HasFrame(a) {
      var n := Next(a);
      var tail := Split(Split(n).rest + b);
      assert [Head(a)] + (Split(n).msgs + tail.msgs) == ([Head(a)] + Split(n).msgs) + tail.msgs;
      AppendKeepsFrame(a, b);
      SplitAppend(n, b);
    } else {
      assert [] + Split(a + b).msgs == Split(a + b).msgs;
    }
  }

  /**
   * Successive pushes of `chunks` onto a backlog that holds `pending`: the
   * messages each push emits, concatenated, and the backlog left at the end.
   */
  function Feed(pending: seq<byte>, chunks: seq<seq<byte>>): Framed
    decreases |chunks|
  {
    if chunks == [] then Framed([], pending)
    else
      var f := Split(pending + chunks[0]);
      var more := Feed(f.rest, chunks[1..]);
      Framed(f.msgs + more.msgs, more.rest)
  }

  function Flatten(chunks: seq<seq<byte>>): seq<byte>
    decreases |chunks|
  {
    if chunks == [] then [] else chunks[0] + Flatten(chunks[1..])
  }

  /** Feeding chunks one at a time frames exactly as framing their concatenation at once. */
  lemma {:induction false} FeedIsSplit(pending: seq<byte>, chunks: seq<seq<byte>>)
    requires !HasFrame(pending)
    ensures Feed(pending, chunks) == Split(pending + Flatten(chunks))
    decreases |chunks|
  {
    if chunks == [] {
      assert pending + Flatten(chunks) == pending;
    } else {
      var head, tail := pending + chunks[0], Flatten(chunks[1..]);
      AppendAssoc(pending, chunks[0], tail);
      FeedIsSplit(Split(head).rest, chunks[1..]);
      SplitAppend(head, tail);
    }
  }

  /** The emitted messages do not depend on how the stream was cut into chunks. */
  lemma ChunkingInvariant(chunks1: seq<seq<byte>>, chunks2: seq<seq<byte>>)
    requires Flatten(chunks1) == Flatten(chunks2)
    ensures Feed([], chunks1) == Feed([], chunks2)
  {
    FeedIsSplit([], chunks1);
    FeedIsSplit([], chunks2);
  }

  // ------------------------------------------------------------ the wire layout

  function Packets(ms: seq<RawMessage>): seq<byte>
    decreases |ms|
  {
    if ms == [] then [] else Packet(ms[0].tag, ms[0].data) + Packets(ms[1..])
  }

  predicate Encodable(ms: seq<RawMessage>) {
    forall i | 0 <= i < |ms| :: |ms[i].data| + 4 < 0x1_0000_0000
  }

  /** The framer cuts a packet back into its tag and payload, whatever follows it. */
  lemma SplitPacket(tag: byte, body: seq<byte>, rest: seq<byte>)
    requires |body| + 4 < 0x1_0000_0000
    ensures Split(Packet(tag, body) + rest).msgs == [RawMessage(tag, body)] + Split(rest).msgs
    ensures Split(Packet(tag, body) + rest).rest == Split(rest).rest
  {
    var s, n := Packet(tag, body) + rest, |body| + 4;
    assert s[1..] == BE32(n) + (body + rest);
    U32Prefix(BE32(n), body + rest);
    U32OfBE32(n);
    Mod32Small(n);
    assert Declared(s) == n;
    assert s[5..] == body + rest;
    assert s[5..1 + n] == body && s[1 + n..] == rest;
  }

  lemma AppendAssoc<T>(a: seq<T>, b: seq<T>, c: seq<T>)
    ensures (a + b) + c == a + (b + c)
  {
  }

  lemma ConsAppend<T>(xs: seq<T>, ys: seq<T>)
    requires xs != []
    ensures [xs[0]] + (xs[1..] + ys) == xs + ys
  {
    assert [xs[0]] + xs[1..] == xs;
  }

  /** Encoding messages and framing the bytes gives the messages back, in order. */
  lemma {:induction false} SplitPackets(ms: seq<RawMessage>, rest: seq<byte>)
    requires Encodable(ms)
    ensures Split(Packets(ms) + rest).msgs == ms + Split(rest).msgs
    ensures Split(Packets(ms) + rest).rest == Split(rest).rest
    decreases |ms|
  {
    if ms == [] {
      assert Packets(ms) + rest == rest;
    } else {
      var m, x := ms[0], Packets(ms[1..]) + rest;
      assert Packets(ms) + rest == Packet(m.tag, m.data) + x;
      ConsAppend(ms, Split(rest).msgs);
      SplitPacket(m.tag, m.data, x);
      SplitPackets(ms[1..], rest);
    }
  }

  /** Every length field the framer meets in s counts at least its own four bytes. */
  predicate LengthsValid(s: seq<byte>)
    decreases |s|
  {
    HasFrame(s) ==> Declared(s) >= 4 && LengthsValid(s[1 + Declared(s)..])
  }

  /** When no length field is short, no byte is lost: the messages and the rest re-encode to the input. */
  lemma {:induction false} SplitLosesNothing(s: seq<byte>)
    requires LengthsValid(s)
    ensures Packets(Split(s).msgs) + Split(s).rest == s
    decreases |s|
  {
    if HasFrame(s) {
      var h, n := Head(s), Next(s);
      var t := Split(n);
      PacketsCons(h, t.msgs);
      AppendAssoc(Packet(h.tag, h.data), Packets(t.msgs), t.rest);
      HeadPacket(s);
      SplitLosesNothing(n);
    } else {
      assert Packets([]) == [];
    }
  }

  lemma PacketsCons(m: RawMessage, ms: seq<RawMessage>)
    ensures Packets([m] + ms) == Packet(m.tag, m.data) + Packets(ms)
  {
    assert ([m] + ms)[1..] == ms;
  }

  /** A well-formed message at the front of s re-encodes to exactly its bytes. */
  lemma HeadPacket(s: seq<byte>)
    requires HasFrame(s) && Declared(s) >= 4
    ensures Packet(Head(s).tag, Head(s).data) == s[..1 + Declared(s)]
    ensures s == s[..1 + Declared(s)] + Next(s)
  {
    var e := 1 + Declared(s);
    BE32OfU32(s[1..]);
    assert |Head(s).data| + 4 == Declared(s);
    assert s[..e] == [s[0]] + s[1..][..4] + s[5..e];
  }

  /** The header fields as the loop reads them: the tag, then the length, then the payload. */
  lemma HeaderFields(s: seq<byte>)
    requires |s| >= 5
    ensures s[1..][4..] == s[5..] && Declared(s) == U32(s[1..])
  {
  }

  lemma PayloadFields(s: seq<byte>, data: seq<byte>)
    requires HasFrame(s)
    requires data == if Declared(s) - 4 >= 0 then s[5..][..Declared(s) - 4] else []
    ensures data == Head(s).data
  {
  }

  ghost predicate Progress(done: seq<RawMessage>, s: seq<byte>, whole: seq<byte>) {
    done + Split(s).msgs == Split(whole).msgs && Split(s).rest == Split(whole).rest
  }

  lemma ProgressDone(done: seq<RawMessage>, s: seq<byte>, whole: seq<byte>)
    requires Progress(done, s, whole) && !HasFrame(s)
    ensures done == Split(whole).msgs && s == Split(whole).rest
  {
    assert done + [] == done;
  }

  /** One turn of the framing loop keeps the emitted messages a prefix of the framing of the whole backlog. */
  lemma SplitStep(done: seq<RawMessage>, s: seq<byte>, whole: seq<byte>)
    requires HasFrame(s)
    requires Progress(done, s, whole)
    ensures Progress(done + [Head(s)], Next(s), whole)
  {
    AppendAssoc(done, [Head(s)], Split(Next(s)).msgs);
  }

  /**
   * The framing loop over a buffer: while a 5-byte header is unread, read
   * the tag and the length; if the payload is not all there, step back over
   * the header and stop, else read the payload and emit the message.
   */
  method Drain(b: Buffer) returns (msgs: seq<RawMessage>)
    requires b.Valid()
    modifies b`pos
    ensures b.Valid()
    ensures msgs == Split(old(b.Remaining())).msgs
    ensures b.Remaining() == Split(old(b.Remaining())).rest
  {
    ghost var whole := b.Remaining();
    msgs := [];
    while b.Available() >= 5
      invariant b.Valid() && Progress(msgs, b.Remaining(), whole)
      decreases b.Available()
    {
      ghost var rem := b.Remaining();
      var complete, m := ReadFrame(b);
      if !complete {
        break;
      }
      SplitStep(msgs, rem, whole);
      msgs := msgs + [m];
    }
    ProgressDone(msgs, b.Remaining(), whole);
  }

  /**
   * One turn of the framing loop: reads the tag and the length; when the
   * payload is all there, reads it too, otherwise steps back over the header.
   */
  method ReadFrame(b: Buffer) returns (complete: bool, m: RawMessage)
    requires b.Valid() && b.Available() >= 5
    modifies b`pos
    ensures b.Valid()
    ensures complete <==> HasFrame(old(b.Remaining()))
    ensures complete ==> m == Head(old(b.Remaining())) && b.Remaining() == Next(old(b.Remaining()))
    ensures !complete ==> b.Remaining() == old(b.Remaining())
  {
    ghost var rem := b.Remaining();
    var tag := b.ReadUint8();
    var declared := b.ReadUint32();
    HeaderFields(rem);
    assert b.Remaining() == rem[5..];
    var size := declared as int - 4;
    if b.Available() < size {
      b.Unread(5);
      return false, RawMessage(tag, []);
    }
    assert b.pos + size <= b.len;
    var data := b.ReadBuf(size);
    PayloadFields(rem, data);
    return true, RawMessage(tag, data);
  }

  // ------------------------------------------------------------ the framer object

  class Defragmenter {
    const backlog: Buffer

    /** Between pushes the backlog is compacted and holds no complete message. */
    ghost predicate Valid()
      reads this, backlog, backlog.buf
    {
      && backlog.Valid()
      && backlog.pos == 0
      && backlog.sizeHint == BacklogSizeHint
      && backlog.buf.Length > 0
      && !HasFrame(backlog.Remaining())
    }

    /** The bytes received but not yet emitted as a message. */
    ghost function Pending(): seq<byte>
      reads this, backlog, backlog.buf
      requires Valid()
    {
      backlog.Remaining()
    }

    constructor ()
      ensures Valid() && fresh(backlog) && fresh(backlog.buf)
      ensures Pending() == []
    {
      backlog := new Buffer(BacklogSizeHint);
    }

    /**
     * One transport chunk: append it, emit every complete message (the
     * onRecvMsg callbacks, returned in order), keep the incomplete tail and
     * compact the backlog.
     */
    method Push(chunk: seq<byte>) returns (msgs: seq<RawMessage>)
      requires Valid()
      modifies backlog, backlog.buf
      ensures Valid() && fresh(backlog.buf)
      ensures msgs == Split(old(Pending()) + chunk).msgs
      ensures Pending() == Split(old(Pending()) + chunk).rest
      ensures backlog.buf.Length == Max(BacklogSizeHint, |Pending()|)
    {
      backlog.WriteBuf(chunk);
      msgs := Drain(backlog);
      backlog.Compact();
    }
  }
}

=== FILE: wrappers.dfy ===
/** Failure-carrying results used across the model. */
module Wrappers {

  datatype Option<+T> = None | Some(value: T)

  datatype Result<+T, +E> = Ok(value: T) | Err(error: E)
}
